=== FILE: README.md ===
# Contribution statistics of a wiki user, in Dafny

This project models the core of a statistics page for one wiki user: the
contribution list (`ContribsList` in `main.js`) and the helpers it needs.
Each contribution is a record with a namespace number, a page title, a
timestamp, an edit summary and optional change tags (`Contribs.Edit`).

On that list the model defines:

- sorting by timestamp;
- the order-preserving filters by namespace, UTC weekday, UTC hour and edit summary;
- the groupings by namespace, weekday, hour, change tag, month, month and namespace, namespace and month, and programming language;
- the weekday-by-hour punchcard;
- the thirty most edited titles;
- the longest streak of consecutive days with contributions.

It also models three helpers of `util`:

- `yearMonth`: the `YYYY/MM` code of a month;
- `allMonths`: every month code from a first month to the current one;
- `listToText`: joining words into running text.

The modules follow the program's structure:

- `Seqs`: an order-preserving filter (`Pick`, which is jQuery's `$.grep`), grouping into keyed buckets in first-occurrence order, and sums. A JavaScript object used as a dictionary is an ordered sequence of key/value pairs.
- `Sorting`: insertion sort by an integer key. It is stable, as ECMAScript 2019 requires of `Array.prototype.sort`, and `Contribs.SortIdempotent` relies on that.
- `Calendar`: UTC weekday, hour and calendar month of an epoch-millisecond timestamp, computed the way JavaScript's `Date` does. It also holds the month codes and their parser (the reading `allMonths` does), the month line, and `allMonths` itself as nested loops.
- `Contribs`: the record, the filters and the groupings.
- `Ranking`: `topEdited`.
- `Streak`: `longestStreak`. There are two versions: the fold as written, and a corrected linear scan with a maximality proof.
- `Text`: `listToText`.

Some inputs the original takes from its environment are parameters here:

- the first month (`from` in `FilterByMonth` and `AllMonths`), which the page takes from `vars.firstMonth`, the month of the user's first contribution (main.js:781-783, 1000);
- the current date (`now` in `FilterByMonth` and `AllMonths`);
- the list of the wiki's namespaces (`nsIds`);
- the localized separators of `listToText`;
- the conversion of a timestamp to local midnight (`midnight` in `Streak.DayValues`).

The streak functions work on the resulting sequence of day values.

## Model

| member | source | states |
|---|---|---|
| Contribs.Sort | main.js:61-67 | The result is in ascending timestamp order and is a permutation of the input. |
| Contribs.SortIdempotent | main.js:61-67 | An already sorted list comes back unchanged, so sorting twice equals sorting once. |
| Sorting.SortedSameKeys | main.js:61-67 | Two sorted orders of the same records agree on the timestamp at every position: they differ only among equal timestamps. |
| Contribs.GrepByNamespace | main.js:217-221 | A record is kept exactly when its namespace equals the number given, or lies in the array given. A kept record appears as often as in the input. |
| Contribs.GrepByDay | main.js:223-227 | Exactly the records whose UTC weekday is the number given, each as often as in the input. |
| Contribs.GrepByHour | main.js:229-233 | Exactly the records whose UTC hour is the number given, each as often as in the input. |
| Contribs.FiltersKeepOrder | main.js:201-233 | Filtering a concatenation is concatenating the filtered parts, so the filters keep the input order. |
| Calendar.Weekday | main.js:225 | `getUTCDay` lies in 0..6. |
| Calendar.WeekdaySteps | main.js:225 | The epoch is a Thursday (4), and each further day moves the weekday on by one modulo 7. |
| Calendar.UtcHour | main.js:231 | `getUTCHours` lies in 0..23, and the timestamp falls inside that hour of its UTC day. |
| Contribs.GrepByEditSummary | main.js:201-215 | As written: without a summary (absent or empty), every record is kept, empty comments included. With a summary, exactly the records whose comment equals it are kept. |
| Contribs.GrepByEditSummaryFixed | main.js:201-215 | As evidently intended: without a summary, exactly the records with a non-empty comment. With a summary, exactly those whose comment equals it. |
| Contribs.SummaryFiltersAgree | main.js:201-215 | The written and intended filters coincide whenever a summary is given. Without one, the intended filter keeps no more records. |
| Contribs.SummaryCounterexample | main.js:203-213 | For one record with an empty comment and no summary, the written filter keeps it and the intended filter drops it. |
| Contribs.SummaryCount | main.js:1241 | As evidently intended: the number of edits with a summary is at most the number of edits. It equals that number exactly when no comment is empty. |
| Contribs.NsPresent | main.js:79-82 | The records of one namespace are empty exactly when no record has that namespace. |
| Contribs.FilterByNamespace | main.js:73-85 | Each bucket holds the namespace filter of its id. An id is a key exactly when it is listed and either `alsoEmpty` is set or some record has it. With `alsoEmpty`, the keys are the listed ids in order. |
| Contribs.NamespaceTotal | main.js:73-85 | With distinct ids, the bucket sizes add up to the number of records in the listed namespaces. That is every record when each record's namespace is listed. |
| Contribs.FilterByDay | main.js:87-93 | Seven buckets. Bucket `d` is the weekday filter for `d`, and holds exactly the records of UTC weekday `d`. |
| Contribs.FilterByHour | main.js:95-101 | Twenty-four buckets. Bucket `h` is the hour filter for `h`, and holds exactly the records of UTC hour `h`. |
| Contribs.BucketTotals | main.js:87-101 | The day buckets together, and the hour buckets together, hold as many records as the list. |
| Contribs.Punchcard | main.js:267-275 | 168 counts. Entry `c` is the number of records of UTC weekday `c / 24` and UTC hour `c % 24`. |
| Contribs.PunchcardEntry | main.js:267-275 | Entry `24*d + h` counts the records of weekday `d` and hour `h`. |
| Contribs.PunchcardRow | main.js:269-273 | The hour counts of the records of weekday `d` count the records of slot (`d`, `h`). |
| Contribs.SlotMembers | main.js:267-275 | A slot holds a record exactly when both its weekday and its hour match, as often as in the input. |
| Contribs.PunchcardTotal | main.js:267-275 | The punchcard counts every record exactly once: its entries add up to the length of the list. |
| Contribs.TagKey | main.js:106-120 | A record falls into no tag bucket exactly when it has two or more tags. |
| Contribs.TagKeyCases | main.js:106-120 | One tag gives its bucket. No tag list, or an empty one, gives `none`. Two or more tags give no bucket. A single tag named `none` shares the bucket of untagged records. |
| Contribs.FilterByTag | main.js:103-133 | One count per bucket, with distinct tags. Each count is the number of records in that bucket and is positive. The tags listed are exactly those some record falls under. |
| Contribs.TagTotal | main.js:103-133 | The counts add up to the number of records with at most one tag. |
| Calendar.YearMonthOf | main.js:643-649 | The UTC month of a timestamp is the calendar month whose days include the timestamp's day. |
| Calendar.CodeRoundTrip | main.js:643-649 | Reading a month code back, by splitting at the slash and parsing both numbers as `allMonths` does, gives the month it came from. |
| Calendar.CodeInjective | main.js:643-649 | Distinct months have distinct codes. |
| Calendar.MonthTextDigits | main.js:644-647 | The month is padded to two digits and reads back as itself. |
| Calendar.ParseIntRoundTrip | main.js:785-786 | Parsing the decimal text of an integer gives the integer. |
| Calendar.MonthRange | main.js:780-797 | The months from the first through the last, consecutive on the month line. Empty exactly when the first comes after the last. |
| Calendar.InMonthRange | main.js:780-797 | A month is in the range exactly when it lies between the two ends. |
| Calendar.AppendYear | main.js:790-795 | The inner loop appends the codes of the months of one year, continuing the run of consecutive month codes. |
| Calendar.AllMonths | main.js:780-797 | The nested year and month loops yield exactly the codes of the months of the range, in order. |
| Calendar.RangeCodes | main.js:780-797 | The codes of consecutive month indexes from the first month are the codes of the range. |
| Contribs.MonthLookup | main.js:138-150 | In the grouping by month code, the bucket under a month's code holds the records of that month. |
| Contribs.FilterByMonth | main.js:135-157 | One entry per month of the range, keyed by its code. Each entry holds, in order, exactly the records of that UTC month. |
| Contribs.MonthCoverage | main.js:135-157 | A record is in some entry exactly when its month lies in the range, and then only under its own code. |
| Contribs.MonthMembers | main.js:138-155 | A record is in the entry of a month exactly when its UTC month is that month. |
| Contribs.FilterByMonthAndNamespace | main.js:159-165 | One entry per month. Its keys are all listed ids, and cell (month, id) holds the records of that month and namespace. |
| Contribs.NamespaceCells | main.js:73-85 | With `alsoEmpty`, the keys are the listed ids and each cell holds the records of its namespace. |
| Contribs.FilterByNamespaceAndMonth | main.js:167-173 | One entry per listed id, each with one cell per month, keyed by month code. Cell (id, month) holds the records of that namespace and month. |
| Contribs.CrossTabsAgree | main.js:159-173 | Both cross tabulations hold the same records in the same order in cell (month, namespace). |
| Contribs.Lang | main.js:178-190 | Lua exactly for namespace 828. `js`/`css` exactly for namespaces 2 and 8 when the lower-cased title ends in `.js`/`.css`. `py` exactly for namespace 2 when the title ends in `.py` (case-sensitive) and matches neither `.js` nor `.css`. |
| Contribs.LanguageExamples | main.js:179-186 | Sample titles: `.JS` counts as JavaScript, while a `.js` title outside namespaces 2 and 8 has no language. |
| Contribs.PythonExamples | main.js:182-189 | Sample titles: `.PY` is not Python, and `.py` in namespace 8 is not Python. |
| Contribs.FilterByProgrammingLanguage | main.js:175-199 | Distinct keys among lua, js, css and py, with no empty bucket. Each bucket holds, in order, exactly the records of its language. A language is a key exactly when some record has it. |
| Contribs.LanguageBucketsDisjoint | main.js:175-199 | A record lies in at most one bucket, and in one exactly when it has a language. |
| Ranking.ZeroMeansAll | main.js:236-239 | The falsy namespace 0 ranks every record, the same as no namespace. |
| Ranking.Occurrences | main.js:240-251 | Distinct titles, each with the number of records carrying it, and exactly the titles that occur. |
| Ranking.Ranked | main.js:252-254 | A permutation of the counts, by non-increasing count, with distinct titles and correct positive counts. |
| Ranking.TopEdited | main.js:235-265 | At most thirty titles, by non-increasing count, without repetition, each with its count. `overflow` holds exactly when more than thirty distinct titles occur. Without overflow every title is listed; with it, exactly thirty are. |
| Ranking.TopIsPrefix | main.js:256-263 | The listed titles are the first entries of the ranking. |
| Ranking.RankOf | main.js:252-254 | Every title that occurs has a place in the ranking. |
| Ranking.OmittedTitle | main.js:256-259 | A title that occurs but is not listed means the list overflowed, and every listed title occurs at least as often. |
| Streak.Step | main.js:289-310 | One record of the written fold. With no run, the day opens one (main.js:290-291). A lone day followed by the same or the next day becomes a span (main.js:293-295). A lone day followed by any other day is dropped together with that day (main.js:296-298). A span continued by the same or the next day is extended to it (main.js:301-303). A span broken by any other day is reset, and it is stored when no streak is stored yet or it is strictly longer than the stored one (main.js:304-308). The stored streak changes only in that case. |
| Streak.ContinuingKeepsBest | main.js:300-303 | A record that continues the current span leaves the stored streak as it was. |
| Streak.UnbrokenFold | main.js:287-311 | When all the records form one streak, the fold stores nothing and ends with the run from the first day to the last. |
| Streak.WholeStreakLost | main.js:287-312 | When all the records form one streak, the written method returns nothing: a streak still open at the end is never stored. |
| Streak.FoldValid | main.js:287-311 | After any prefix, the stored streak is a streak of the days seen, and the current run ends at the last day. |
| Streak.LongestStreakAsWritten | main.js:279-313 | The written method returns nothing, or the first and last day (first ≤ last) of a streak of at least two records. |
| Streak.FirstBreakReported | main.js:287-312 | When the first records form a streak of at least two and the next record breaks it, the written method returns a streak at least as long as that one. |
| Streak.BestNeverShrinks | main.js:304-307 | The stored streak never gets shorter as records are added. |
| Streak.OpenStreakLost | main.js:287-312 | The smallest instance: two consecutive days give no streak. |
| Streak.BreakingDayLost | main.js:292-309 | For days 0, 1, 3, 4, 5, 7, the written method reports days 0 to 1, although days 3 to 5 form a longer streak. |
| Streak.LoneDayLost | main.js:292-298 | For days 0, 5, 6, 8, the written method reports no streak, although days 5 and 6 form one. |
| Streak.LongestStreak | main.js:279-313 | Corrected version: empty exactly when no two successive records are equal or one day apart. Otherwise the first and last day of a streak whose span is at least that of every streak. |
| Streak.Advance | main.js:289-310 | One record of the corrected scan keeps the current run and a longest streak so far. |
| Streak.ExtendBest | main.js:300-307 | A day that continues the streak keeps or replaces the best streak. |
| Streak.BreakBest | main.js:296-309 | A day that breaks the streak starts the next one, and the best streak stays correct. |
| Streak.EndingAt | main.js:300-303 | The current run continued at a day is the longest streak ending at that day. |
| Streak.LinkedMonotone | main.js:283-285 | Day values only grow along a streak. |
| Streak.Finish | main.js:312 | After the last record, the best streak found is the answer. |
| Streak.DayValues | main.js:286-288 | One day value per record, in timestamp order. When the conversion to local midnight keeps the order of time, the day values never decrease. |
| Streak.StreakIgnoresOrder | main.js:282-286 | Two lists holding the same records, in any order, give the same day values, and so the same streak. |
| Text.Join | main.js:806-807 | `Array.prototype.join`: one item is itself, two are `a sep b`, and the text begins with the first item and ends with the last. |
| Text.JoinSnoc | main.js:806-807 | One more item adds one separator and the item at the end. |
| Text.JoinConcat | main.js:806-807 | Joining two non-empty lists one after the other is joining each, with one separator between them. |
| Text.JoinLength | main.js:806-807 | The joined text is as long as the items plus one separator between each two. |
| Text.SeparatorLengthIs | main.js:806-807 | There is one separator fewer than items. |
| Text.ListToText | main.js:799-809 | Nothing for no items, the item itself for one, `a sep and sep b` for two. The text begins with the first item and ends with the last. |
| Text.ListToTextJoin | main.js:808 | Three or more items are the items joined by `comma`, with `and sep` in front of the last. |
| Text.ListToTextLength | main.js:799-809 | The length of the text: the items plus `sep and sep` for two items; for more, the items plus one `comma` between each two, plus `and` and `sep`. |

## Left out

- `log` (main.js:69-71) writes to the console, which has no counterpart here.
- The data loading (`getData`), the network, the page and the charts are not modelled. That also covers the legends, percentages and i18n strings of `filterByTag`. Only its counts are modelled.
- `util.percent` and `util.dateDiff` use floating point and are not modelled.
- `util.parseMsg` rewrites wiki markup with regular expressions and is not modelled.
- The `ContribsList` constructor (main.js:37-54) copies the prototype methods onto an array. Records are plain immutable sequences here, so every operation leaves its input as it was, `longestStreak`'s input included.
- Contribs.Sort: the original `sort` reorders its receiver in place (main.js:62) and returns it. `longestStreak` relies on that: it discards the result of `cc.sort()` at main.js:286 and then walks `cc`. `Contribs.Sort` returns a new sequence, and `Streak.DayValues` walks that sequence.
- `revid`, `sizediff` and the other record fields no core operation reads are not modelled.
- The current date (`new Date()` in `allMonths`) is the parameter `now`.
- The list of the wiki's namespaces (`vars.namespaces`) is the parameter `nsIds`.
- The local-time `setHours(0, 0, 0, 0)` of `longestStreak` is the parameter `midnight`. So daylight-saving days of 23 or 25 hours, which the original does not treat as consecutive, are the caller's concern.
- Timestamps are unbounded integers. JavaScript's `Date` is limited to 8.64e15 ms either side of the epoch, and yields NaN outside that range.
- Calendar.AllMonths: the `from` argument is a parsed month. The `parseInt` leniency toward malformed strings (`"2012x/5"`) is not modelled. `CodeRoundTrip` shows that every code the page produces reads back exactly.
- Contribs.FilterByNamespace: the buckets keep the order of `nsIds`. A JavaScript object enumerates non-negative integer keys in ascending order before the others, and the others, negative ids included, after them in insertion order. So the original's key order differs unless `nsIds` lists the non-negative ids in ascending order before the negative ones: an ascending `[-2, -1, 0, 1]` comes out as 0, 1, -2, -1.
- Contribs.FilterByNamespaceAndMonth: the same key-order difference applies to its outer keys.
- Contribs.FilterByTag: a tag that names any `Object.prototype` property (`__proto__`, `constructor`, `toString`, `hasOwnProperty`, …) finds that property in the original's object at main.js:108. The property is truthy and has no `push`, so the call throws a `TypeError`. An integer-like tag would also be listed first. The model treats every tag as an ordinary key in order of first occurrence.
- Ranking.TopEdited: the result is an ordered list of (title, count) pairs. The original returns an object, and an object lists integer-like titles such as `2012` first, in ascending order, whatever their counts.
- Ranking.TopEdited: a title that names any `Object.prototype` property collides in the same way at main.js:245-246. Its count becomes the text of that property with `1` appended, or is dropped for `__proto__`. Also, titles with equal counts keep the object's key order under the stable `Array.prototype.sort`. The model sorts stably too, but its contracts say nothing about ties.
- Ranking.TopEdited: the namespace argument is modelled as the number or array `grepByNamespace` accepts. The page passes a string (main.js:1036-1037), and a string falls into the array branch of `grepByNamespace`, using `indexOf` on a string. That call path is not modelled.
- Contribs.Lang: `toLowerCase` is modelled on ASCII letters only.
- Streak.LongestStreakAsWritten: its own contract only bounds what a non-empty answer can be. `Streak.FirstBreakReported` says when the answer is non-empty, and `Streak.WholeStreakLost` says when it is empty.
- Streak.LongestStreakAsWritten: the condition `i < cc.length` (main.js:301) always holds inside `$.each`, so it is left out.

Two behaviours of the code are modelled as written:

- A record with two or more tags is counted in no tag bucket.
- The `.py` test is case-sensitive, while `.js`/`.css` are matched on the lower-cased title.

## Findings

| source | as written | input that shows it | evidently intended | confidence | as-written member | corrected member |
|---|---|---|---|---|---|---|
| main.js:201-215 | Without a summary, the final `if(!summary) return e` keeps every record, so the "edit summary percent" of the page (main.js:1241, 1291) is 100% for every non-empty list. | one record with comment `""`, called with no summary | without a summary, keep only records with a non-empty comment | not executed | Contribs.GrepByEditSummary, Contribs.SummaryCounterexample | Contribs.GrepByEditSummaryFixed, Contribs.SummaryCount |
| main.js:287-312 | A streak still running at the last record is never stored: only a broken span is committed. | two records on consecutive days give `[]` | the streak open at the end is considered too | not executed | Streak.LongestStreakAsWritten, Streak.WholeStreakLost, Streak.OpenStreakLost | Streak.LongestStreak |
| main.js:296-308 | The day that breaks a streak resets the run to empty instead of starting a new run, so it can never begin the next streak. This holds both after a span (line 308) and after a lone day (line 297). | days 0, 1, 3, 4, 5, 7 give days 0-1, although 3-5 is longer; days 0, 5, 6, 8 give `[]`, although 5-6 is a streak | a breaking day starts the next streak | not executed | Streak.LongestStreakAsWritten, Streak.BreakingDayLost, Streak.LoneDayLost | Streak.LongestStreak |

=== FILE: calendar.dfy ===
/** UTC calendar arithmetic on epoch-millisecond timestamps, as JavaScript's
    `Date` performs it (proleptic Gregorian calendar, 1970-01-01 a Thursday),
    together with the month codes of `util.yearMonth` and the month list of
    `util.allMonths`. */
module Calendar {
  import opened Seqs

  const MsPerDay: int := 86400000
  const MsPerHour: int := 3600000

  /** Days since 1970-01-01 of the UTC day holding `ts` (floor division). */
  function DayNumber(ts: int): int
  {
    ts / MsPerDay
  }

  /** `getUTCDay`: 0 = Sunday .. 6 = Saturday. */
  function Weekday(ts: int): (r: int)
    ensures 0 <= r < 7
  {
    (DayNumber(ts) + 4) % 7
  }

  /** The epoch fell on a Thursday and every day moves the weekday on by one. */
  lemma WeekdaySteps(ts: int)
    ensures Weekday(0) == 4
    ensures Weekday(ts + MsPerDay) == (Weekday(ts) + 1) % 7
  {
    assert DayNumber(ts + MsPerDay) == DayNumber(ts) + 1;
  }

  /** `getUTCHours`: the hour of the UTC day holding `ts`. */
  function UtcHour(ts: int): (r: int)
    ensures 0 <= r < 24
    ensures DayNumber(ts) * MsPerDay + r * MsPerHour <= ts < DayNumber(ts) * MsPerDay + (r + 1) * MsPerHour
  {
    (ts % MsPerDay) / MsPerHour
  }

  predicate IsLeap(y: int)
  {
    y % 4 == 0 && (y % 100 != 0 || y % 400 == 0)
  }

  function DaysInYear(y: int): int
  {
    if IsLeap(y) then 366 else 365
  }

  /** Days in the first `k` months of year `y`. */
  function CumDays(y: int, k: int): int
    requires 0 <= k <= 12
  {
    [0, 31, 59, 90, 120, 151, 181, 212, 243, 273, 304, 334, 365][k] + (if k >= 2 && IsLeap(y) then 1 else 0)
  }

  type Month = m: int | 1 <= m <= 12 witness 1

  function MonthLength(y: int, m: Month): int
  {
    CumDays(y, m) - CumDays(y, m - 1)
  }

  /** Days from January 1st of year `a` to January 1st of year `b`
      (negative when `b` comes first). */
  function YearSpan(a: int, b: int): int
    decreases if a <= b then b - a else a - b
  {
    if a == b then 0
    else if a < b then DaysInYear(a) + YearSpan(a + 1, b)
    else YearSpan(a - 1, b) - DaysInYear(a - 1)
  }

  /** The year and day of year of the day `d` days after January 1st of `y`. */
  function CivilFrom(y: int, d: int): (r: (int, int))
    ensures 0 <= r.1 < DaysInYear(r.0)
    ensures YearSpan(y, r.0) + r.1 == d
    decreases if d < 0 then 1000 - d else d
  {
    if d < 0 then CivilFrom(y - 1, d + DaysInYear(y - 1))
    else if d >= DaysInYear(y) then CivilFrom(y + 1, d - DaysInYear(y))
    else (y, d)
  }

  /** The month of year `y` holding day of year `doy`, searching from month `m`. */
  function MonthFrom(y: int, m: Month, doy: int): (r: Month)
    requires CumDays(y, m - 1) <= doy < DaysInYear(y)
    ensures CumDays(y, r - 1) <= doy < CumDays(y, r)
    decreases 12 - m
  {
    if doy < CumDays(y, m) then m else MonthFrom(y, m + 1, doy)
  }

  datatype YearMonth = YearMonth(year: int, month: Month)

  /** Days since the epoch of the first day of `ym`. */
  function MonthStart(ym: YearMonth): int
  {
    YearSpan(1970, ym.year) + CumDays(ym.year, ym.month - 1)
  }

  /** The UTC year and month holding `ts` (`getUTCFullYear`, `getUTCMonth` + 1):
      the month whose days include the day of `ts`. */
  function YearMonthOf(ts: int): (r: YearMonth)
    ensures MonthStart(r) <= DayNumber(ts) < MonthStart(r) + MonthLength(r.year, r.month)
  {
    var (y, doy) := CivilFrom(1970, DayNumber(ts));
    YearMonth(y, MonthFrom(y, 1, doy))
  }

  function Digit(d: int): (c: char)
    requires 0 <= d < 10
  {
    (d + '0' as int) as char
  }

  /** `Number.prototype.toString` on a non-negative integer. */
  function NatToString(n: nat): string
    decreases n
  {
    if n < 10 then [Digit(n)] else NatToString(n / 10) + [Digit(n % 10)]
  }

  /** `Number.prototype.toString` on an integer. */
  function IntToString(i: int): string
  {
    if i < 0 then "-" + NatToString(-i) else NatToString(i)
  }

  /** A month number, zero-padded to two digits. */
  function MonthText(m: Month): string
  {
    var t := NatToString(m);
    if |t| == 1 then "0" + t else t
  }

  /** `util.yearMonth`: the code `YYYY/MM` of a month. */
  function Code(ym: YearMonth): string
  {
    IntToString(ym.year) + "/" + MonthText(ym.month)
  }

  predicate IsDigit(c: char)
  {
    '0' <= c <= '9'
  }

  /** The value of a string of decimal digits. */
  function DigitsValue(t: string): nat
  {
    if t == [] then 0
    else DigitsValue(t[..|t| - 1]) * 10 + (if IsDigit(t[|t| - 1]) then t[|t| - 1] as int - '0' as int else 0)
  }

  function ParseNat(t: string): Option<nat>
  {
    if t != [] && forall i :: 0 <= i < |t| ==> IsDigit(t[i]) then Some(DigitsValue(t)) else None
  }

  function ParseInt(t: string): Option<int>
  {
    if |t| > 0 && t[0] == '-' then
      match ParseNat(t[1..])
      case None => None
      case Some(v) => Some(-(v as int))
    else
      match ParseNat(t)
      case None => None
      case Some(v) => Some(v)
  }

  /** Reads a month code back the way `util.allMonths` does, splitting at the
      slash and reading both numbers. */
  function ParseCode(c: string): Option<YearMonth>
  {
    if |c| >= 4 && c[|c| - 3] == '/' then
      match (ParseInt(c[..|c| - 3]), ParseNat(c[|c| - 2..]))
      case (Some(y), Some(m)) => if 1 <= m <= 12 then Some(YearMonth(y, m)) else None
      case _ => None
    else None
  }

  lemma {:induction false} NatToStringDigits(n: nat)
    ensures NatToString(n) != []
    ensures forall i :: 0 <= i < |NatToString(n)| ==> IsDigit(NatToString(n)[i])
    ensures DigitsValue(NatToString(n)) == n
    ensures n < 10 <==> |NatToString(n)| == 1
    decreases n
  {
    if n >= 10 {
      NatToStringDigits(n / 10);
      var t := NatToString(n);
      assert t[..|t| - 1] == NatToString(n / 10);
    } else {
      assert [Digit(n)][..0] == [];
    }
  }

  lemma ParseIntRoundTrip(i: int)
    ensures ParseInt(IntToString(i)) == Some(i)
  {
    if i < 0 {
      NatToStringDigits(-i);
      assert ("-" + NatToString(-i))[1..] == NatToString(-i);
    } else {
      NatToStringDigits(i);
      assert IsDigit(NatToString(i)[0]);
    }
  }

  lemma MonthTextDigits(m: Month)
    ensures |MonthText(m)| == 2
    ensures ParseNat(MonthText(m)) == Some(m)
  {
    NatToStringDigits(m);
    var t := NatToString(m);
    if |t| == 1 {
      var u := "0" + t;
      assert t[..0] == [];
      assert DigitsValue(t) == t[0] as int - '0' as int;
      assert u[..1] == "0" && "0"[..0] == [];
      assert DigitsValue("0") == 0;
      assert DigitsValue(u) == t[0] as int - '0' as int;
    }
  }

  /** A month code reads back as the month it was made from. */
  lemma {:induction false} CodeRoundTrip(ym: YearMonth)
    ensures ParseCode(Code(ym)) == Some(ym)
  {
    var y := IntToString(ym.year);
    var m := MonthText(ym.month);
    var c := Code(ym);
    MonthTextDigits(ym.month);
    ParseIntRoundTrip(ym.year);
    assert c[..|c| - 3] == y;
    assert c[|c| - 2..] == m;
  }

  /** Distinct months have distinct codes. */
  lemma CodeInjective(a: YearMonth, b: YearMonth)
    ensures Code(a) == Code(b) ==> a == b
  {
    CodeRoundTrip(a);
    CodeRoundTrip(b);
  }

  /** Position of a month on the month line. */
  function MonthIndex(ym: YearMonth): int
  {
    ym.year * 12 + ym.month - 1
  }

  function FromIndex(i: int): (r: YearMonth)
    ensures MonthIndex(r) == i
  {
    YearMonth(i / 12, i % 12 + 1)
  }

  lemma IndexRoundTrip(ym: YearMonth)
    ensures FromIndex(MonthIndex(ym)) == ym
  {
    var i := MonthIndex(ym);
    assert i / 12 == ym.year;
  }

  /** The months from `from` through `to`, both included, in order. */
  function MonthRange(from: YearMonth, to: YearMonth): (r: seq<YearMonth>)
    ensures |r| == 0 <==> MonthIndex(from) > MonthIndex(to)
    ensures |r| > 0 ==> r[0] == from && r[|r| - 1] == to
    ensures forall i :: 0 <= i < |r| ==> MonthIndex(r[i]) == MonthIndex(from) + i
  {
    var n := MonthIndex(to) - MonthIndex(from) + 1;
    IndexRoundTrip(from);
    IndexRoundTrip(to);
    if n <= 0 then []
    else
      var r := seq(n, i requires 0 <= i < n => FromIndex(MonthIndex(from) + i));
      assert forall i :: 0 <= i < n ==> r[i] == FromIndex(MonthIndex(from) + i);
      r
  }

  /** A month of the range is exactly a month between the two ends. */
  lemma InMonthRange(from: YearMonth, to: YearMonth, ym: YearMonth)
    ensures ym in MonthRange(from, to) <==> MonthIndex(from) <= MonthIndex(ym) <= MonthIndex(to)
  {
    var r := MonthRange(from, to);
    if ym in r {
      var i :| 0 <= i < |r| && r[i] == ym;
      assert MonthIndex(ym) == MonthIndex(from) + i;
    }
    if MonthIndex(from) <= MonthIndex(ym) <= MonthIndex(to) {
      var i := MonthIndex(ym) - MonthIndex(from);
      assert r[i] == ym by {
        RangeAt(from, to, i);
        IndexRoundTrip(ym);
      }
    }
  }

  /** How many months from index `f` through index `n` lie before January
      of `year`. */
  function MonthsBefore(f: int, n: int, year: int): nat
  {
    var stop := if n + 1 <= year * 12 then n + 1 else year * 12;
    if stop <= f then 0 else stop - f
  }

  /** One year of the outer loop of `util.allMonths` moves the count of
      months emitted from the value before `year` to the value before `year + 1`. */
  lemma MonthsBeforeStep(from: YearMonth, now: YearMonth, year: int, start: int, last: int)
    requires from.year <= year <= now.year
    requires start == if year == from.year then from.month - 1 else 0
    requires last == if year == now.year then now.month - 1 else 11
    ensures start <= last + 1 ==> MonthsBefore(MonthIndex(from), MonthIndex(now), year) == year * 12 + start - MonthIndex(from)
    ensures start <= last + 1 ==> MonthsBefore(MonthIndex(from), MonthIndex(now), year + 1) == year * 12 + last + 1 - MonthIndex(from)
    ensures start > last + 1 ==> MonthsBefore(MonthIndex(from), MonthIndex(now), year) == 0
    ensures start > last + 1 ==> MonthsBefore(MonthIndex(from), MonthIndex(now), year + 1) == 0
  {
  }

  /** After the last year, the count is the length of the range. */
  lemma MonthsBeforeEnd(from: YearMonth, now: YearMonth, year: int)
    requires from.year <= year
    requires year == now.year + 1 || (year == from.year && year > now.year)
    ensures MonthsBefore(MonthIndex(from), MonthIndex(now), year) == |MonthRange(from, now)|
  {
  }

  /** The inner loop of `util.allMonths`: appends the codes of the months
      `start` .. `last` (zero-based) of `year`, which continue the run of
      codes from month index `f`. */
  method AppendYear(months: seq<string>, year: int, start: int, last: int, f: int) returns (r: seq<string>)
    requires 0 <= start && last <= 11
    requires start <= last + 1 ==> |months| == year * 12 + start - f
    requires forall i :: 0 <= i < |months| ==> months[i] == Code(FromIndex(f + i))
    ensures start > last + 1 ==> r == months
    ensures start <= last + 1 ==> |r| == year * 12 + last + 1 - f
    ensures forall i :: 0 <= i < |r| ==> r[i] == Code(FromIndex(f + i))
  {
    r := months;
    var month := start;
    while month <= last
      invariant start <= month
      invariant month <= last + 1 || (month == start && r == months)
      invariant start <= last + 1 ==> |r| == year * 12 + month - f
      invariant forall i :: 0 <= i < |r| ==> r[i] == Code(FromIndex(f + i))
    {
      IndexRoundTrip(YearMonth(year, month + 1));
      r := r + [Code(YearMonth(year, month + 1))];
      month := month + 1;
    }
  }

  /** `util.allMonths(from)`: the codes of every month from `from` through
      the current UTC month `now`, built by the original's nested loops over
      years and zero-based months. */
  method AllMonths(from: YearMonth, now: YearMonth) returns (months: seq<string>)
    ensures |months| == |MonthRange(from, now)|
    ensures forall i :: 0 <= i < |months| ==> months[i] == Code(MonthRange(from, now)[i])
  {
    var f := MonthIndex(from);
    var n := MonthIndex(now);
    var fromMonth := from.month - 1;
    var toMonth := now.month - 1;
    months := [];
    var year := from.year;
    while year <= now.year
      invariant from.year <= year
      invariant year <= now.year + 1 || year == from.year
      invariant |months| == MonthsBefore(f, n, year)
      invariant forall i :: 0 <= i < |months| ==> months[i] == Code(FromIndex(f + i))
    {
      var start := if year == from.year then fromMonth else 0;
      var last := if year == now.year then toMonth else 11;
      MonthsBeforeStep(from, now, year, start, last);
      months := AppendYear(months, year, start, last, f);
      year := year + 1;
    }
    MonthsBeforeEnd(from, now, year);
    RangeCodes(from, now, months);
  }

  /** The codes of the run of month indexes from `from` are the codes of
      the months of the range. */
  lemma RangeCodes(from: YearMonth, now: YearMonth, months: seq<string>)
    requires |months| == |MonthRange(from, now)|
    requires forall i :: 0 <= i < |months| ==> months[i] == Code(FromIndex(MonthIndex(from) + i))
    ensures forall i :: 0 <= i < |months| ==> months[i] == Code(MonthRange(from, now)[i])
  {
    forall i | 0 <= i < |months|
      ensures months[i] == Code(MonthRange(from, now)[i])
    {
      RangeAt(from, now, i);
    }
  }

  /** The `i`-th month of the range is `i` months after its start. */
  lemma RangeAt(from: YearMonth, to: YearMonth, i: nat)
    requires i < |MonthRange(from, to)|
    ensures MonthRange(from, to)[i] == FromIndex(MonthIndex(from) + i)
  {
  }
}

=== FILE: contribs.dfy ===
/** The contribution list of the statistics page and its filters and
    groupings: one edit record per contribution, order-preserving filters by
    namespace, weekday, hour and edit summary, groupings by namespace, day,
    hour, tag, month and programming language, and the weekday-by-hour
    punchcard. */
module Contribs {
  import opened Seqs
  import opened Sorting
  import opened Calendar

  /** One contribution. `ts` is the edit time in milliseconds since the epoch
      (UTC); a hidden comment is the empty string; `tags` is absent when the
      record carries no tag list. */
  datatype Edit = Edit(ns: int, title: string, ts: int, comment: string, tags: Option<seq<string>>)

  function EditTs(e: Edit): int { e.ts }
  function EditNs(e: Edit): int { e.ns }
  function EditDay(e: Edit): int { Weekday(e.ts) }
  function EditHour(e: Edit): int { UtcHour(e.ts) }
  function EditSlot(e: Edit): (int, int) { (Weekday(e.ts), UtcHour(e.ts)) }
  function EditMonth(e: Edit): YearMonth { YearMonthOf(e.ts) }

  /** `sort`: the records by ascending timestamp. */
  function Sort(rs: seq<Edit>): (r: seq<Edit>)
    ensures forall i, j :: 0 <= i < j < |r| ==> r[i].ts <= r[j].ts
    ensures multiset(r) == multiset(rs)
  {
    SortBy(rs, EditTs)
  }

  /** Sorting an already sorted list changes nothing, so sorting is idempotent. */
  lemma SortIdempotent(rs: seq<Edit>)
    ensures (forall i, j :: 0 <= i < j < |rs| ==> rs[i].ts <= rs[j].ts) ==> Sort(rs) == rs
    ensures Sort(Sort(rs)) == Sort(rs)
  {
    if forall i, j :: 0 <= i < j < |rs| ==> rs[i].ts <= rs[j].ts {
      SortSorted(rs, EditTs);
    }
    Sorting.SortIdempotent(rs, EditTs);
  }

  // ---------------------------------------------------------------- filters

  /** The argument of `grepByNamespace`: one namespace number, or an array of them. */
  datatype NsFilter = Single(id: int) | AnyOf(ids: seq<int>)

  predicate NsMatches(f: NsFilter, ns: int)
  {
    match f
    case Single(id) => ns == id
    case AnyOf(ids) => ns in ids
  }

  function Allowed(f: NsFilter): (a: set<int>)
    ensures forall ns :: ns in a <==> NsMatches(f, ns)
  {
    match f
    case Single(id) => {id}
    case AnyOf(ids) => set ns | ns in ids
  }

  /** `grepByNamespace`: exactly the records of the given namespace(s), each
      as often as in the input. */
  function GrepByNamespace(rs: seq<Edit>, f: NsFilter): (r: seq<Edit>)
    ensures forall x :: multiset(r)[x] == if NsMatches(f, x.ns) then multiset(rs)[x] else 0
  {
    PickCounts(rs, EditNs, Allowed(f));
    Pick(rs, EditNs, Allowed(f))
  }

  /** `grepByDay`: exactly the records whose UTC weekday is `d`. */
  function GrepByDay(rs: seq<Edit>, d: int): (r: seq<Edit>)
    ensures forall x :: multiset(r)[x] == if Weekday(x.ts) == d then multiset(rs)[x] else 0
  {
    PickCounts(rs, EditDay, {d});
    Pick(rs, EditDay, {d})
  }

  /** `grepByHour`: exactly the records whose UTC hour is `h`. */
  function GrepByHour(rs: seq<Edit>, h: int): (r: seq<Edit>)
    ensures forall x :: multiset(r)[x] == if UtcHour(x.ts) == h then multiset(rs)[x] else 0
  {
    PickCounts(rs, EditHour, {h});
    Pick(rs, EditHour, {h})
  }

  /** JavaScript truthiness of the optional summary argument: absent and the
      empty string are falsy. */
  predicate Falsy(summary: Option<string>)
  {
    summary.None? || summary.value == ""
  }

  /** The keep-test of `grepByEditSummary` as written: a truthy comment is
      kept when it is non-empty (no summary) or equals the summary, and every
      record is kept when there is no summary. */
  predicate KeptAsWritten(e: Edit, summary: Option<string>)
  {
    (e.comment != "" && (if Falsy(summary) then e.comment != "" else e.comment == summary.value))
    || Falsy(summary)
  }

  /** `grepByEditSummary` as written: without a summary it keeps every
      record, including those with an empty comment; with one it keeps the
      records whose comment equals it. */
  function GrepByEditSummary(rs: seq<Edit>, summary: Option<string>): (r: seq<Edit>)
    ensures Falsy(summary) ==> r == rs
    ensures !Falsy(summary) ==>
      forall x :: multiset(r)[x] == if x.comment == summary.value then multiset(rs)[x] else 0
  {
    var keep := (e: Edit) => KeptAsWritten(e, summary);
    PickCounts(rs, keep, {true});
    assert Falsy(summary) ==> Pick(rs, keep, {true}) == rs by {
      if Falsy(summary) {
        PickAll(rs, keep, {true});
      }
    }
    Pick(rs, keep, {true})
  }

  /** The test the summary filter evidently means: without a summary, the
      records that have one. */
  predicate HasSummary(e: Edit, summary: Option<string>)
  {
    if Falsy(summary) then e.comment != "" else e.comment == summary.value
  }

  /** `grepByEditSummary` as intended: without a summary, exactly the
      records with a non-empty comment; with one, exactly the records whose
      comment equals it. */
  function GrepByEditSummaryFixed(rs: seq<Edit>, summary: Option<string>): (r: seq<Edit>)
    ensures Falsy(summary) ==>
      forall x :: multiset(r)[x] == if x.comment != "" then multiset(rs)[x] else 0
    ensures !Falsy(summary) ==>
      forall x :: multiset(r)[x] == if x.comment == summary.value then multiset(rs)[x] else 0
  {
    var keep := (e: Edit) => HasSummary(e, summary);
    PickCounts(rs, keep, {true});
    Pick(rs, keep, {true})
  }

  /** The two summary filters agree whenever a summary is given; without one
      the written filter keeps everything and the intended one only the
      records with a comment. */
  lemma SummaryFiltersAgree(rs: seq<Edit>, summary: Option<string>)
    ensures !Falsy(summary) ==> GrepByEditSummary(rs, summary) == GrepByEditSummaryFixed(rs, summary)
    ensures Falsy(summary) ==> |GrepByEditSummaryFixed(rs, summary)| <= |GrepByEditSummary(rs, summary)|
  {
    var k1 := (e: Edit) => KeptAsWritten(e, summary);
    var k2 := (e: Edit) => HasSummary(e, summary);
    if !Falsy(summary) {
      PickSameSelection(rs, k1, {true}, k2, {true});
    }
  }

  /** One record with an empty comment: the written filter keeps it when
      called without a summary, the intended one does not. */
  lemma SummaryCounterexample()
    ensures var rs := [Edit(0, "Page", 0, "", None)];
      GrepByEditSummary(rs, None) == rs && GrepByEditSummaryFixed(rs, None) == []
  {
    var rs := [Edit(0, "Page", 0, "", None)];
    PickSingle(rs[0], (e: Edit) => HasSummary(e, None), {true});
  }

  /** The number of edits with an edit summary, as the summary percentage
      evidently means it: at most the number of edits, and all of them
      exactly when no comment is empty. */
  function SummaryCount(rs: seq<Edit>): (n: nat)
    ensures n <= |rs|
    ensures n == |rs| <==> forall x :: x in rs ==> x.comment != ""
  {
    var r := GrepByEditSummaryFixed(rs, None);
    var keep := (e: Edit) => HasSummary(e, None);
    assert r == Pick(rs, keep, {true});
    if forall x :: x in rs ==> x.comment != "" then
      PickAll(rs, keep, {true});
      |r|
    else
      var x :| x in rs && x.comment == "";
      PickMember(rs, keep, {true}, x);
      assert multiset(r) != multiset(rs) by {
        assert x in multiset(rs) && x !in multiset(r);
      }
      PickCounts(rs, keep, {true});
      SubMultisetSmaller(r, rs);
      |r|
  }

  /** A sequence whose multiset lies inside another's, and differs from it, is shorter. */
  lemma SubMultisetSmaller<T>(r: seq<T>, s: seq<T>)
    requires multiset(r) <= multiset(s) && multiset(r) != multiset(s)
    ensures |r| < |s|
  {
    var d := multiset(s) - multiset(r);
    assert multiset(s) == multiset(r) + d;
    assert |multiset(s)| == |multiset(r)| + |d|;
    var y :| y in d;
    assert |d| > 0;
  }

  /** The filters keep the input order: filtering a concatenation is
      concatenating the filtered parts. */
  lemma FiltersKeepOrder(a: seq<Edit>, b: seq<Edit>, f: NsFilter, d: int, h: int, summary: Option<string>)
    ensures GrepByNamespace(a + b, f) == GrepByNamespace(a, f) + GrepByNamespace(b, f)
    ensures GrepByDay(a + b, d) == GrepByDay(a, d) + GrepByDay(b, d)
    ensures GrepByHour(a + b, h) == GrepByHour(a, h) + GrepByHour(b, h)
    ensures GrepByEditSummary(a + b, summary) == GrepByEditSummary(a, summary) + GrepByEditSummary(b, summary)
  {
    PickAppend(a, b, EditNs, Allowed(f));
    PickAppend(a, b, EditDay, {d});
    PickAppend(a, b, EditHour, {h});
    PickAppend(a, b, (e: Edit) => KeptAsWritten(e, summary), {true});
  }

  // -------------------------------------------------------------- groupings

  /** Some record belongs to namespace `id`. */
  ghost predicate HasNs(rs: seq<Edit>, id: int)
  {
    exists x :: x in rs && x.ns == id
  }

  /** The filter for one namespace is empty exactly when no record belongs to it. */
  lemma NsPresent(rs: seq<Edit>, id: int)
    ensures GrepByNamespace(rs, Single(id)) != [] <==> HasNs(rs, id)
  {
    var f := GrepByNamespace(rs, Single(id));
    if f != [] {
      assert f[0] in multiset(f);
    }
    forall x | x in rs && x.ns == id
      ensures f != []
    {
      assert x in multiset(rs);
    }
  }

  /** `filterByNamespace`: for each namespace id, in the order given, the
      records of that namespace; a namespace without records is listed only
      when `alsoEmpty` is set. */
  function FilterByNamespace(rs: seq<Edit>, nsIds: seq<int>, alsoEmpty: bool): (r: seq<(int, seq<Edit>)>)
    ensures forall i :: 0 <= i < |r| ==> r[i].1 == GrepByNamespace(rs, Single(r[i].0))
    ensures forall id :: id in Keys(r) <==> id in nsIds && (alsoEmpty || HasNs(rs, id))
    ensures alsoEmpty ==> Keys(r) == nsIds
  {
    if nsIds == [] then []
    else
      var id := nsIds[0];
      var f := GrepByNamespace(rs, Single(id));
      var rest := FilterByNamespace(rs, nsIds[1..], alsoEmpty);
      NsPresent(rs, id);
      assert nsIds == [id] + nsIds[1..];
      if f != [] || alsoEmpty then
        KeysCons((id, f), rest);
        [(id, f)] + rest
      else rest
  }

  /** With distinct ids, the buckets of `filterByNamespace` hold together as
      many records as the list filter for all those ids keeps, and every
      record when each record's namespace is listed. */
  lemma NamespaceTotal(rs: seq<Edit>, nsIds: seq<int>, alsoEmpty: bool)
    requires Distinct(nsIds)
    ensures Sum(Sizes(Values(FilterByNamespace(rs, nsIds, alsoEmpty)))) == |GrepByNamespace(rs, AnyOf(nsIds))|
    ensures (forall x :: x in rs ==> x.ns in nsIds) ==>
      Sum(Sizes(Values(FilterByNamespace(rs, nsIds, alsoEmpty)))) == |rs|
  {
    NamespaceSum(rs, nsIds, alsoEmpty);
    if forall x :: x in rs ==> x.ns in nsIds {
      PickAll(rs, EditNs, Allowed(AnyOf(nsIds)));
    }
  }

  lemma {:induction false} NamespaceSum(rs: seq<Edit>, nsIds: seq<int>, alsoEmpty: bool)
    requires Distinct(nsIds)
    ensures Sum(Sizes(Values(FilterByNamespace(rs, nsIds, alsoEmpty)))) == |Pick(rs, EditNs, Allowed(AnyOf(nsIds)))|
    decreases |nsIds|
  {
    if nsIds == [] {
      PickEmpty(rs, EditNs, Allowed(AnyOf(nsIds)));
    } else {
      assert Distinct(nsIds[1..]);
      NamespaceSum(rs, nsIds[1..], alsoEmpty);
      NamespaceSizesStep(rs, nsIds, alsoEmpty);
      NamespacePickStep(rs, nsIds);
    }
  }

  /** The first namespace contributes its records to the bucket sizes. */
  lemma NamespaceSizesStep(rs: seq<Edit>, nsIds: seq<int>, alsoEmpty: bool)
    requires nsIds != []
    ensures Sum(Sizes(Values(FilterByNamespace(rs, nsIds, alsoEmpty)))) ==
      |Pick(rs, EditNs, {nsIds[0]})| + Sum(Sizes(Values(FilterByNamespace(rs, nsIds[1..], alsoEmpty))))
  {
    var id := nsIds[0];
    var rest := FilterByNamespace(rs, nsIds[1..], alsoEmpty);
    var f := GrepByNamespace(rs, Single(id));
    assert f == Pick(rs, EditNs, {id});
    if f != [] || alsoEmpty {
      assert FilterByNamespace(rs, nsIds, alsoEmpty) == [(id, f)] + rest;
      SizesValuesCons((id, f), rest);
      SumAppend([|f|], Sizes(Values(rest)));
    }
  }

  /** The records of a list of distinct namespaces are those of the first
      and those of the others. */
  lemma NamespacePickStep(rs: seq<Edit>, nsIds: seq<int>)
    requires nsIds != [] && Distinct(nsIds)
    ensures |Pick(rs, EditNs, Allowed(AnyOf(nsIds)))| ==
      |Pick(rs, EditNs, {nsIds[0]})| + |Pick(rs, EditNs, Allowed(AnyOf(nsIds[1..])))|
  {
    var id := nsIds[0];
    var tail := nsIds[1..];
    assert Allowed(AnyOf(nsIds)) == {id} + Allowed(AnyOf(tail)) by {
      assert nsIds == [id] + tail;
    }
    assert id !in tail;
    PickDisjointUnion(rs, EditNs, {id}, Allowed(AnyOf(tail)));
  }

  /** `filterByDay`: seven buckets; bucket `d` holds, in order, exactly the
      records of UTC weekday `d`. */
  function FilterByDay(rs: seq<Edit>): (r: seq<seq<Edit>>)
    ensures |r| == 7
    ensures forall d :: 0 <= d < 7 ==> r[d] == GrepByDay(rs, d)
    ensures forall d, x :: 0 <= d < 7 ==>
      multiset(r[d])[x] == if Weekday(x.ts) == d then multiset(rs)[x] else 0
  {
    seq(7, d => GrepByDay(rs, d))
  }

  /** `filterByHour`: twenty-four buckets; bucket `h` holds, in order,
      exactly the records of UTC hour `h`. */
  function FilterByHour(rs: seq<Edit>): (r: seq<seq<Edit>>)
    ensures |r| == 24
    ensures forall h :: 0 <= h < 24 ==> r[h] == GrepByHour(rs, h)
    ensures forall h, x :: 0 <= h < 24 ==>
      multiset(r[h])[x] == if UtcHour(x.ts) == h then multiset(rs)[x] else 0
  {
    seq(24, h => GrepByHour(rs, h))
  }

  /** Every record lies in exactly one day bucket and one hour bucket. */
  lemma BucketTotals(rs: seq<Edit>)
    ensures Sum(Sizes(FilterByDay(rs))) == |rs|
    ensures Sum(Sizes(FilterByHour(rs))) == |rs|
  {
    PartitionSizes(rs, EditDay, 7, FilterByDay(rs));
    PartitionSizes(rs, EditHour, 24, FilterByHour(rs));
  }

  /** Records of weekday `d` and hour `h` are the records of slot `(d, h)`. */
  lemma {:induction false} PickSlot(s: seq<Edit>, d: int, h: int)
    ensures Pick(Pick(s, EditDay, {d}), EditHour, {h}) == Pick(s, EditSlot, {(d, h)})
    decreases |s|
  {
    if s != [] {
      var p := s[..|s| - 1];
      var x := s[|s| - 1];
      PickSlot(p, d, h);
      var t := if EditDay(x) in {d} then [x] else [];
      PickAppend(Pick(p, EditDay, {d}), t, EditHour, {h});
      PickSingle(x, EditHour, {h});
    }
  }

  /** The number of records of UTC weekday `d` and UTC hour `h`. */
  function SlotCount(rs: seq<Edit>, d: int, h: int): nat
  {
    |Pick(rs, EditSlot, {(d, h)})|
  }

  /** The records counted in a slot are those of its weekday and hour. */
  lemma SlotMembers(rs: seq<Edit>, d: int, h: int, x: Edit)
    ensures multiset(Pick(rs, EditSlot, {(d, h)}))[x] ==
      if Weekday(x.ts) == d && UtcHour(x.ts) == h then multiset(rs)[x] else 0
  {
    PickCount(rs, EditSlot, {(d, h)}, x);
  }

  /** The punchcard rows for weekdays `d` .. 6. */
  function PunchcardFrom(rs: seq<Edit>, d: nat): (r: seq<nat>)
    requires d <= 7
    ensures |r| == 24 * (7 - d)
    ensures forall c :: 0 <= c < |r| ==> r[c] == SlotCount(rs, d + c / 24, c % 24)
    decreases 7 - d
  {
    if d == 7 then []
    else
      var row := Sizes(FilterByHour(GrepByDay(rs, d)));
      var rest := PunchcardFrom(rs, d + 1);
      PunchcardRow(rs, d);
      PunchcardStep(rs, d, row, rest);
      row + rest
  }

  /** Row `d` followed by the rows after it holds the counts for weekdays `d` .. 6. */
  lemma PunchcardStep(rs: seq<Edit>, d: int, row: seq<nat>, rest: seq<nat>)
    requires |row| == 24 && forall h :: 0 <= h < 24 ==> row[h] == SlotCount(rs, d, h)
    requires forall c :: 0 <= c < |rest| ==> rest[c] == SlotCount(rs, d + 1 + c / 24, c % 24)
    ensures forall c :: 0 <= c < |row + rest| ==> (row + rest)[c] == SlotCount(rs, d + c / 24, c % 24)
  {
    var r := row + rest;
    forall c | 0 <= c < |r|
      ensures r[c] == SlotCount(rs, d + c / 24, c % 24)
    {
      DayAndHour(c);
      if c < 24 {
        assert r[c] == row[c];
      } else {
        assert r[c] == rest[c - 24];
      }
    }
  }

  lemma DayAndHour(c: int)
    requires 0 <= c
    ensures c < 24 ==> c / 24 == 0 && c % 24 == c
    ensures c >= 24 ==> (c - 24) / 24 + 1 == c / 24 && (c - 24) % 24 == c % 24
  {
  }

  /** Row `d` of the punchcard: the hour counts of the records of weekday `d`. */
  lemma PunchcardRow(rs: seq<Edit>, d: int)
    ensures forall h :: 0 <= h < 24 ==>
      Sizes(FilterByHour(GrepByDay(rs, d)))[h] == SlotCount(rs, d, h)
  {
    forall h | 0 <= h < 24
      ensures Sizes(FilterByHour(GrepByDay(rs, d)))[h] == SlotCount(rs, d, h)
    {
      PickSlot(rs, d, h);
    }
  }

  /** `toPunchcard`: 168 counts; entry `c` counts the records of UTC weekday
      `c / 24` and UTC hour `c % 24`. */
  function Punchcard(rs: seq<Edit>): (r: seq<nat>)
    ensures |r| == 168
    ensures forall c :: 0 <= c < 168 ==> r[c] == SlotCount(rs, c / 24, c % 24)
  {
    PunchcardFrom(rs, 0)
  }

  /** Entry `24 * d + h` of the punchcard is the number of records of
      weekday `d` and hour `h`. */
  lemma PunchcardEntry(rs: seq<Edit>, d: int, h: int)
    requires 0 <= d < 7 && 0 <= h < 24
    ensures Punchcard(rs)[24 * d + h] == SlotCount(rs, d, h)
  {
    assert (24 * d + h) / 24 == d && (24 * d + h) % 24 == h;
  }


  lemma {:induction false} PunchcardFromSum(rs: seq<Edit>, d: nat)
    requires d <= 7
    ensures Sum(PunchcardFrom(rs, d)) == Sum(Sizes(FilterByDay(rs))[d..])
    decreases 7 - d
  {
    var z := Sizes(FilterByDay(rs));
    if d == 7 {
    } else {
      PunchcardFromSum(rs, d + 1);
      var day := GrepByDay(rs, d);
      var row := Sizes(FilterByHour(day));
      PartitionSizes(day, EditHour, 24, FilterByHour(day));
      SumAppend(row, PunchcardFrom(rs, d + 1));
      SumFrom(z, d);
    }
  }

  /** The punchcard counts every record exactly once. */
  lemma PunchcardTotal(rs: seq<Edit>)
    ensures Sum(Punchcard(rs)) == |rs|
  {
    PunchcardFromSum(rs, 0);
    assert Sizes(FilterByDay(rs))[0..] == Sizes(FilterByDay(rs));
    BucketTotals(rs);
  }

  // ------------------------------------------------------------------- tags

  /** The tag bucket of a record: its only tag, `none` when it has no tag or
      no tag list, and no bucket when it has two or more tags. */
  function TagKey(e: Edit): (k: Option<string>)
    ensures k.None? <==> !FewTags(e)
  {
    if e.tags.Some? && |e.tags.value| == 1 then Some(e.tags.value[0])
    else if e.tags.None? || |e.tags.value| == 0 then Some("none")
    else None
  }

  /** At most one tag. */
  predicate FewTags(e: Edit)
  {
    e.tags.None? || |e.tags.value| <= 1
  }

  /** `filterByTag`, the counts only: one entry per bucket, in order of
      first occurrence, with distinct tags; each count is the number of
      records in that bucket, and no count is zero. */
  function FilterByTag(rs: seq<Edit>): (r: seq<(string, nat)>)
    ensures DistinctKeys(r)
    ensures forall i :: 0 <= i < |r| ==> r[i].1 == |Pick(rs, TagKey, {Some(r[i].0)})| > 0
    ensures forall t :: t in Keys(r) <==> exists x :: x in rs && TagKey(x) == Some(t)
  {
    var g := GroupBy(rs, TagKey);
    var r := seq(|g|, i requires 0 <= i < |g| => (g[i].0, |g[i].1|));
    assert Keys(r) == Keys(g);
    r
  }

  /** The tag counts add up to the number of records with at most one tag. */
  lemma TagTotal(rs: seq<Edit>)
    ensures Sum(Values(FilterByTag(rs))) == |Pick(rs, FewTags, {true})|
  {
    var g := GroupBy(rs, TagKey);
    GroupByTotal(rs, TagKey);
    assert Values(FilterByTag(rs)) == Sizes(Values(g));
    PickSameSelection(rs, TagKey, {None}, FewTags, {false});
    PickDisjointUnion(rs, FewTags, {true}, {false});
    PickAll(rs, FewTags, {true} + {false});
  }

  /** The bucket rules, record by record. */
  lemma TagKeyCases(e: Edit)
    ensures e.tags.Some? && |e.tags.value| == 1 ==> TagKey(e) == Some(e.tags.value[0])
    ensures e.tags.None? || e.tags == Some([]) ==> TagKey(e) == Some("none")
    ensures e.tags.Some? && |e.tags.value| >= 2 ==> TagKey(e) == None
    ensures e.tags == Some(["none"]) ==> TagKey(e) == TagKey(e.(tags := None))
  {
  }

  // ---------------------------------------------------------------- months

  function MonthKey(e: Edit): Option<string>
  {
    Some(Code(YearMonthOf(e.ts)))
  }

  /** The bucket of month code `Code(m)` in the grouping by month code holds
      the records of month `m`. */
  lemma MonthLookup(rs: seq<Edit>, g: seq<(string, seq<Edit>)>, m: YearMonth)
    requires Grouped(g, rs, MonthKey)
    ensures Lookup(g, Code(m)) == Pick(rs, EditMonth, {m})
  {
    forall x | x in rs
      ensures MonthKey(x) in {Some(Code(m))} <==> EditMonth(x) in {m}
    {
      CodeInjective(YearMonthOf(x.ts), m);
    }
    PickSameSelection(rs, MonthKey, {Some(Code(m))}, EditMonth, {m});
    if Code(m) in Keys(g) {
      var i :| 0 <= i < |g| && g[i].0 == Code(m);
    } else {
      PickEmpty(rs, MonthKey, {Some(Code(m))});
    }
  }

  /** `filterByMonth`: one entry per month from `from` through `now`, keyed
      by its month code, holding in order exactly the records of that UTC
      month; records of other months are in no entry. */
  function FilterByMonth(rs: seq<Edit>, from: YearMonth, now: YearMonth): (r: seq<(string, seq<Edit>)>)
    ensures |r| == |MonthRange(from, now)|
    ensures forall i :: 0 <= i < |r| ==>
      r[i].0 == Code(MonthRange(from, now)[i]) && r[i].1 == Pick(rs, EditMonth, {MonthRange(from, now)[i]})
  {
    var g := GroupBy(rs, MonthKey);
    var months := MonthRange(from, now);
    forall i | 0 <= i < |months|
      ensures Lookup(g, Code(months[i])) == Pick(rs, EditMonth, {months[i]})
    {
      MonthLookup(rs, g, months[i]);
    }
    seq(|months|, i requires 0 <= i < |months| => (Code(months[i]), Lookup(g, Code(months[i]))))
  }

  /** A record appears in the month grouping exactly when its month lies
      between `from` and `now`, and then under its own month. */
  lemma MonthCoverage(rs: seq<Edit>, from: YearMonth, now: YearMonth, x: Edit)
    requires x in rs
    ensures var r := FilterByMonth(rs, from, now);
      (exists i :: 0 <= i < |r| && x in r[i].1) <==>
        MonthIndex(from) <= MonthIndex(YearMonthOf(x.ts)) <= MonthIndex(now)
    ensures var r := FilterByMonth(rs, from, now);
      forall i :: 0 <= i < |r| && x in r[i].1 ==> r[i].0 == Code(YearMonthOf(x.ts))
  {
    var r := FilterByMonth(rs, from, now);
    var months := MonthRange(from, now);
    MonthMembers(rs, from, now, x);
    InMonthRange(from, now, YearMonthOf(x.ts));
    if YearMonthOf(x.ts) in months {
      var i :| 0 <= i < |months| && months[i] == YearMonthOf(x.ts);
      assert x in r[i].1;
    }
  }

  lemma MonthMembers(rs: seq<Edit>, from: YearMonth, now: YearMonth, x: Edit)
    requires x in rs
    ensures var r := FilterByMonth(rs, from, now);
      forall i :: 0 <= i < |r| ==> (x in r[i].1 <==> YearMonthOf(x.ts) == MonthRange(from, now)[i])
  {
    var r := FilterByMonth(rs, from, now);
    forall i | 0 <= i < |r|
      ensures x in r[i].1 <==> YearMonthOf(x.ts) == MonthRange(from, now)[i]
    {
      PickMember(rs, EditMonth, {MonthRange(from, now)[i]}, x);
    }
  }

  /** `filterByMonthAndNamespace`: for each month of the range, the
      namespace grouping (all listed ids) of that month's records. */
  function FilterByMonthAndNamespace(rs: seq<Edit>, from: YearMonth, now: YearMonth, nsIds: seq<int>):
    (r: seq<(string, seq<(int, seq<Edit>)>)>)
    ensures |r| == |MonthRange(from, now)|
    ensures forall i :: 0 <= i < |r| ==> r[i].0 == Code(MonthRange(from, now)[i]) && Keys(r[i].1) == nsIds
    ensures forall i :: 0 <= i < |r| ==> |r[i].1| == |nsIds|
    ensures forall i, j :: 0 <= i < |r| && 0 <= j < |nsIds| ==>
      r[i].1[j].1 == Pick(Pick(rs, EditMonth, {MonthRange(from, now)[i]}), EditNs, {nsIds[j]})
  {
    var byMonth := FilterByMonth(rs, from, now);
    var r := seq(|byMonth|, i requires 0 <= i < |byMonth| => (byMonth[i].0, FilterByNamespace(byMonth[i].1, nsIds, true)));
    forall i | 0 <= i < |r|
      ensures Keys(r[i].1) == nsIds && |r[i].1| == |nsIds|
      ensures forall j :: 0 <= j < |nsIds| ==>
        r[i].1[j].1 == Pick(Pick(rs, EditMonth, {MonthRange(from, now)[i]}), EditNs, {nsIds[j]})
    {
      NamespaceCells(byMonth[i].1, nsIds);
    }
    r
  }

  /** The cells of the namespace grouping that lists every id. */
  lemma NamespaceCells(rs: seq<Edit>, nsIds: seq<int>)
    ensures var r := FilterByNamespace(rs, nsIds, true);
      Keys(r) == nsIds && forall j :: 0 <= j < |r| ==> r[j].1 == Pick(rs, EditNs, {nsIds[j]})
  {
    var r := FilterByNamespace(rs, nsIds, true);
    forall j | 0 <= j < |r|
      ensures r[j].1 == Pick(rs, EditNs, {nsIds[j]})
    {
      assert Keys(r)[j] == nsIds[j];
    }
  }

  /** `filterByNamespaceAndMonth`: for each listed namespace id, the month
      grouping of that namespace's records. */
  function FilterByNamespaceAndMonth(rs: seq<Edit>, nsIds: seq<int>, from: YearMonth, now: YearMonth):
    (r: seq<(int, seq<(string, seq<Edit>)>)>)
    ensures Keys(r) == nsIds
    ensures forall j :: 0 <= j < |r| ==> |r[j].1| == |MonthRange(from, now)|
    ensures forall j, i :: 0 <= j < |r| && 0 <= i < |r[j].1| ==>
      r[j].1[i].0 == Code(MonthRange(from, now)[i]) &&
      r[j].1[i].1 == Pick(Pick(rs, EditNs, {nsIds[j]}), EditMonth, {MonthRange(from, now)[i]})
  {
    var byNs := FilterByNamespace(rs, nsIds, true);
    NamespaceCells(rs, nsIds);
    seq(|byNs|, j requires 0 <= j < |byNs| => (byNs[j].0, FilterByMonth(byNs[j].1, from, now)))
  }

  /** The two cross tabulations hold the same cells: the records of month
      `i` and namespace `j` are the same whichever grouping comes first. */
  lemma CrossTabsAgree(rs: seq<Edit>, nsIds: seq<int>, from: YearMonth, now: YearMonth, i: nat, j: nat)
    requires i < |MonthRange(from, now)| && j < |nsIds|
    ensures FilterByMonthAndNamespace(rs, from, now, nsIds)[i].1[j] ==
      (nsIds[j], FilterByNamespaceAndMonth(rs, nsIds, from, now)[j].1[i].1)
  {
    var m := MonthRange(from, now)[i];
    PickCommute(rs, EditMonth, {m}, EditNs, {nsIds[j]});
    var a := FilterByMonthAndNamespace(rs, from, now, nsIds);
    assert Keys(a[i].1)[j] == nsIds[j];
  }

  // ------------------------------------------------------ programming languages

  function Lower(c: char): char
  {
    if 'A' <= c <= 'Z' then (c as int + 32) as char else c
  }

  function LowerString(s: string): (r: string)
    ensures |r| == |s| && forall i :: 0 <= i < |s| ==> r[i] == Lower(s[i])
  {
    seq(|s|, i requires 0 <= i < |s| => Lower(s[i]))
  }

  /** The language of a record, if any: Scribunto modules are Lua; user and
      MediaWiki pages whose lower-cased title ends in `.js` or `.css` are
      JavaScript or CSS; other user pages whose title ends in `.py`, case
      sensitively, are Python. */
  function Lang(e: Edit): (r: Option<string>)
    ensures r.Some? ==> r.value in {"lua", "js", "css", "py"}
    ensures r == Some("lua") <==> e.ns == 828
    ensures r == Some("js") <==> (e.ns == 2 || e.ns == 8) && EndsWith(LowerString(e.title), ".js")
    ensures r == Some("css") <==> (e.ns == 2 || e.ns == 8) && EndsWith(LowerString(e.title), ".css")
    ensures r == Some("py") <==>
      (e.ns == 2 && EndsWith(e.title, ".py") &&
       !EndsWith(LowerString(e.title), ".js") && !EndsWith(LowerString(e.title), ".css"))
  {
    if e.ns == 828 then Some("lua")
    else if e.ns == 2 || e.ns == 8 then
      var low := LowerString(e.title);
      assert !(EndsWith(low, ".js") && EndsWith(low, ".css")) by {
        if EndsWith(low, ".css") {
          assert low[|low| - 3] == ".css"[1];
        }
      }
      if EndsWith(low, ".js") then Some("js")
      else if EndsWith(low, ".css") then Some("css")
      else if e.ns == 2 && EndsWith(e.title, ".py") then Some("py")
      else None
    else None
  }

  /** `filterByProgrammingLanguage`: buckets keyed by language in order of
      first occurrence; keys are distinct and among lua, js, css and py; no
      bucket is empty; each bucket holds, in order, exactly the records of
      its language, so no record is in two buckets. */
  function FilterByProgrammingLanguage(rs: seq<Edit>): (r: seq<(string, seq<Edit>)>)
    ensures DistinctKeys(r)
    ensures forall i :: 0 <= i < |r| ==> r[i].0 in {"lua", "js", "css", "py"} && r[i].1 != []
    ensures forall i :: 0 <= i < |r| ==> r[i].1 == Pick(rs, Lang, {Some(r[i].0)})
    ensures forall l :: l in Keys(r) <==> exists x :: x in rs && Lang(x) == Some(l)
  {
    var g := GroupBy(rs, Lang);
    forall i | 0 <= i < |g|
      ensures g[i].0 in {"lua", "js", "css", "py"}
    {
      assert g[i].0 in Keys(g);
    }
    g
  }

  /** A record lies in at most one language bucket, and in one exactly when
      it has a language. */
  lemma LanguageBucketsDisjoint(rs: seq<Edit>, x: Edit)
    requires x in rs
    ensures var r := FilterByProgrammingLanguage(rs);
      forall i, j :: 0 <= i < j < |r| ==> !(x in r[i].1 && x in r[j].1)
    ensures var r := FilterByProgrammingLanguage(rs);
      Lang(x).Some? <==> exists i :: 0 <= i < |r| && x in r[i].1
  {
    var r := FilterByProgrammingLanguage(rs);
    forall i | 0 <= i < |r|
      ensures x in r[i].1 <==> Lang(x) == Some(r[i].0)
    {
      PickMember(rs, Lang, {Some(r[i].0)}, x);
    }
    if Lang(x).Some? {
      assert Lang(x).value in Keys(r);
      var i :| 0 <= i < |r| && r[i].0 == Lang(x).value;
      assert x in r[i].1;
    }
  }

  /** Sample records: the extension test is case-insensitive for `.js`. */
  lemma LanguageExamples()
    ensures Lang(Edit(828, "Module:X", 0, "", None)) == Some("lua")
    ensures Lang(Edit(2, "U/a.JS", 0, "", None)) == Some("js")
    ensures Lang(Edit(8, "M:a.css", 0, "", None)) == Some("css")
    ensures Lang(Edit(0, "a.js", 0, "", None)) == None
  {
    assert LowerString("U/a.JS")[3..] == ".js";
    assert "M:a.css"[3..] == ".css";
  }

  /** Sample records: the `.py` test is case-sensitive and only for user pages. */
  lemma PythonExamples()
    ensures Lang(Edit(2, "U/b.py", 0, "", None)) == Some("py")
    ensures Lang(Edit(2, "U/b.PY", 0, "", None)) == None
    ensures Lang(Edit(8, "M:b.py", 0, "", None)) == None
  {
    assert "U/b.py"[3..] == ".py";
    assert "U/b.PY"[3..] != ".py";
    assert LowerString("U/b.PY")[3..] != ".js";
    assert LowerString("U/b.PY")[2..] != ".css";
    assert LowerString("U/b.py")[3..] != ".js";
    assert LowerString("U/b.py")[2..] != ".css";
    assert LowerString("M:b.py")[3..] != ".js";
    assert LowerString("M:b.py")[2..] != ".css";
  }
}

=== FILE: ranking.dfy ===
/** The most edited titles: how often each title occurs among the
    contributions (optionally of some namespaces), ranked by count and cut
    to the first thirty. */
module Ranking {
  import opened Seqs
  import opened Sorting
  import opened Contribs

  /** At most this many titles are listed. */
  const TopLimit: nat := 30

  /** The ranked (title, count) pairs and whether titles were cut off. */
  datatype TopResult = TopResult(top: seq<(string, nat)>, overflow: bool)

  function EditTitle(e: Edit): Option<string> { Some(e.title) }

  /** How many records carry title `t`. */
  function TitleCount(rs: seq<Edit>, t: string): nat
  {
    |Pick(rs, EditTitle, {Some(t)})|
  }

  /** The distinct titles of the records. */
  ghost function Titles(rs: seq<Edit>): set<string>
  {
    set x | x in rs :: x.title
  }

  /** The namespace argument is falsy: absent or the number 0. A list of
      numbers is always truthy, even when empty. */
  predicate NoScope(ns: Option<NsFilter>)
  {
    ns.None? || ns == Some(Single(0))
  }

  /** The records `topEdited` ranks. */
  function Scoped(rs: seq<Edit>, ns: Option<NsFilter>): (r: seq<Edit>)
    ensures NoScope(ns) ==> r == rs
    ensures !NoScope(ns) ==> r == GrepByNamespace(rs, ns.value)
  {
    if NoScope(ns) then rs else GrepByNamespace(rs, ns.value)
  }

  /** The title counts, in order of first occurrence: distinct titles, each
      with the number of records carrying it, exactly the titles that occur. */
  function Occurrences(rs: seq<Edit>): (occ: seq<(string, nat)>)
    ensures DistinctKeys(occ)
    ensures forall i :: 0 <= i < |occ| ==> occ[i].1 == TitleCount(rs, occ[i].0) > 0
    ensures forall t :: t in Keys(occ) <==> t in Titles(rs)
    ensures |occ| == |Titles(rs)|
  {
    var g := GroupBy(rs, EditTitle);
    var occ := seq(|g|, i requires 0 <= i < |g| => (g[i].0, |g[i].1|));
    assert Keys(occ) == Keys(g);
    forall t
      ensures t in Keys(occ) <==> t in Titles(rs)
    {
      if t in Titles(rs) {
        var x :| x in rs && x.title == t;
        assert EditTitle(x) == Some(t);
      }
    }
    DistinctCard(Keys(occ));
    assert (set t | t in Keys(occ)) == Titles(rs);
    occ
  }

  /** A sequence without repetitions has as many elements as its set. */
  lemma {:induction false} DistinctCard<K>(s: seq<K>)
    requires Distinct(s)
    ensures |set x | x in s| == |s|
    decreases |s|
  {
    if s != [] {
      var p := s[..|s| - 1];
      var last := s[|s| - 1];
      assert Distinct(p);
      DistinctCard(p);
      assert (set x | x in s) == (set x | x in p) + {last} by {
        assert s == p + [last];
      }
      assert last !in (set x | x in p);
    }
  }

  /** Two positions holding the same value count twice in the multiset. */
  lemma TwiceCounted<T>(s: seq<T>, i: nat, j: nat)
    requires i < j < |s| && s[i] == s[j]
    ensures multiset(s)[s[i]] >= 2
  {
    assert s == s[..j] + s[j..];
    assert s[i] in s[..j];
    assert s[j..][0] == s[j];
  }

  /** Distinct keys make every pair occur at most once. */
  lemma {:induction false} DistinctKeysOnce<K, V>(a: seq<(K, V)>, p: (K, V))
    requires DistinctKeys(a)
    ensures multiset(a)[p] <= 1
    decreases |a|
  {
    if a != [] {
      var q := a[..|a| - 1];
      assert a == q + [a[|a| - 1]];
      assert DistinctKeys(q);
      DistinctKeysOnce(q, p);
    }
  }

  /** A permutation of pairs with distinct keys has distinct keys. */
  lemma PermDistinctKeys<K, V>(a: seq<(K, V)>, b: seq<(K, V)>)
    requires DistinctKeys(a) && multiset(a) == multiset(b)
    ensures DistinctKeys(b)
  {
    forall i, j | 0 <= i < j < |b|
      ensures b[i].0 != b[j].0
    {
      if b[i] == b[j] {
        TwiceCounted(b, i, j);
        DistinctKeysOnce(a, b[i]);
      } else {
        assert b[i] in multiset(a) && b[j] in multiset(a);
        var p :| 0 <= p < |a| && a[p] == b[i];
        var q :| 0 <= q < |a| && a[q] == b[j];
        assert p != q;
      }
    }
  }

  function NegCount(p: (string, nat)): int { -(p.1 as int) }

  /** The title counts of `s` by non-increasing count: a permutation of the
      counts in order of first occurrence. */
  function Ranked(s: seq<Edit>): (r: seq<(string, nat)>)
    ensures multiset(r) == multiset(Occurrences(s))
    ensures forall i, j :: 0 <= i < j < |r| ==> r[i].1 >= r[j].1
    ensures DistinctKeys(r)
    ensures forall i :: 0 <= i < |r| ==> r[i].1 == TitleCount(s, r[i].0) > 0
    ensures |r| == |Titles(s)|
  {
    var occ := Occurrences(s);
    var r := SortBy(occ, NegCount);
    PermDistinctKeys(occ, r);
    forall i | 0 <= i < |r|
      ensures r[i].1 == TitleCount(s, r[i].0) > 0
    {
      assert r[i] in multiset(occ);
    }
    assert forall i, j :: 0 <= i < j < |r| ==> NegCount(r[i]) <= NegCount(r[j]);
    r
  }

  /** `topEdited`: at most thirty titles with their counts among the scoped
      records, by non-increasing count, without repetition; `overflow` is
      set exactly when more than thirty distinct titles occur; when it is
      not set every title is listed. */
  function TopEdited(rs: seq<Edit>, ns: Option<NsFilter>): (r: TopResult)
    ensures |r.top| <= TopLimit
    ensures forall i, j :: 0 <= i < j < |r.top| ==> r.top[i].1 >= r.top[j].1
    ensures forall i :: 0 <= i < |r.top| ==> r.top[i].1 == TitleCount(Scoped(rs, ns), r.top[i].0) > 0
    ensures DistinctKeys(r.top)
    ensures r.overflow <==> |Titles(Scoped(rs, ns))| > TopLimit
    ensures !r.overflow ==> |r.top| == |Titles(Scoped(rs, ns))|
    ensures r.overflow ==> |r.top| == TopLimit
  {
    var sorted := Ranked(Scoped(rs, ns));
    if |sorted| > TopLimit then TopResult(sorted[..TopLimit], true)
    else TopResult(sorted, false)
  }

  /** The listed titles are the first entries of the ranking. */
  lemma TopIsPrefix(rs: seq<Edit>, ns: Option<NsFilter>)
    ensures TopEdited(rs, ns).top == Ranked(Scoped(rs, ns))[..|TopEdited(rs, ns).top|]
  {
  }

  /** Every title that occurs has a place in the ranking. */
  lemma RankOf(s: seq<Edit>, t: string) returns (k: nat)
    requires t in Titles(s)
    ensures k < |Ranked(s)| && Ranked(s)[k].0 == t
  {
    var occ := Occurrences(s);
    assert t in Keys(occ);
    var i :| 0 <= i < |occ| && Keys(occ)[i] == t;
    assert occ[i] in multiset(Ranked(s));
    k :| 0 <= k < |Ranked(s)| && Ranked(s)[k] == occ[i];
  }

  /** A title that occurs but is not listed was cut off: the list overflowed
      and every listed title occurs at least as often. */
  lemma OmittedTitle(rs: seq<Edit>, ns: Option<NsFilter>, t: string)
    requires t in Titles(Scoped(rs, ns))
    requires t !in Keys(TopEdited(rs, ns).top)
    ensures TopEdited(rs, ns).overflow
    ensures forall i :: 0 <= i < |TopEdited(rs, ns).top| ==>
      TopEdited(rs, ns).top[i].1 >= TitleCount(Scoped(rs, ns), t)
  {
    var s := Scoped(rs, ns);
    var sorted := Ranked(s);
    var top := TopEdited(rs, ns).top;
    var k := RankOf(s, t);
    TopIsPrefix(rs, ns);
    forall i | 0 <= i < |top|
      ensures top[i].1 >= TitleCount(s, t)
    {
      assert top[i] == sorted[i];
    }
  }

  /** The ranking of the whole list and of the list of namespace 0 coincide,
      since 0 is falsy and means no filter. */
  lemma ZeroMeansAll(rs: seq<Edit>)
    ensures TopEdited(rs, Some(Single(0))) == TopEdited(rs, None)
  {
  }
}

=== FILE: seqs.dfy ===
/** Sequence helpers shared by the aggregation model: an order-preserving
    filter, grouping into keyed buckets in first-occurrence order, and sums
    of bucket sizes. A JavaScript object used as a dictionary is modelled as
    an ordered sequence of (key, value) pairs. */
module Seqs {

  datatype Option<T> = None | Some(value: T)

  predicate StartsWith<T(==)>(s: seq<T>, p: seq<T>)
  {
    |p| <= |s| && s[..|p|] == p
  }

  predicate EndsWith<T(==)>(s: seq<T>, p: seq<T>)
  {
    |p| <= |s| && s[|s| - |p|..] == p
  }

  /** The elements of `s`, in their original order, whose key lies in `ks`. */
  function Pick<T(==, !new), K(==, !new)>(s: seq<T>, key: T -> K, ks: set<K>): (r: seq<T>)
    ensures |r| <= |s|
  {
    if s == [] then []
    else
      var last := s[|s| - 1];
      Pick(s[..|s| - 1], key, ks) + (if key(last) in ks then [last] else [])
  }

  /** Each element is picked as often as it occurs, when its key is selected,
      and never otherwise. */
  lemma {:induction false} PickCount<T(!new), K(!new)>(s: seq<T>, key: T -> K, ks: set<K>, x: T)
    ensures multiset(Pick(s, key, ks))[x] == if key(x) in ks then multiset(s)[x] else 0
    decreases |s|
  {
    if s != [] {
      var last := s[|s| - 1];
      assert s == s[..|s| - 1] + [last];
      PickCount(s[..|s| - 1], key, ks, x);
    }
  }

  /** Membership in a pick. */
  lemma PickMember<T(!new), K(!new)>(s: seq<T>, key: T -> K, ks: set<K>, x: T)
    ensures x in Pick(s, key, ks) <==> x in s && key(x) in ks
  {
    PickCount(s, key, ks, x);
  }

  /** A pick that selects nothing that occurs is empty. */
  lemma PickEmpty<T(!new), K(!new)>(s: seq<T>, key: T -> K, ks: set<K>)
    requires forall x :: x in s ==> key(x) !in ks
    ensures Pick(s, key, ks) == []
  {
    var r := Pick(s, key, ks);
    if r != [] {
      PickMember(s, key, ks, r[0]);
    }
  }

  /** `PickCount` for every element at once. */
  lemma PickCounts<T(!new), K(!new)>(s: seq<T>, key: T -> K, ks: set<K>)
    ensures forall x :: multiset(Pick(s, key, ks))[x] == if key(x) in ks then multiset(s)[x] else 0
  {
    forall x
      ensures multiset(Pick(s, key, ks))[x] == if key(x) in ks then multiset(s)[x] else 0
    {
      PickCount(s, key, ks, x);
    }
  }

  /** Two picks that select the same elements are the same pick. */
  lemma {:induction false} PickSameSelection<T(!new), K(!new), L(!new)>(s: seq<T>, k1: T -> K, a: set<K>, k2: T -> L, b: set<L>)
    requires forall x :: x in s ==> (k1(x) in a <==> k2(x) in b)
    ensures Pick(s, k1, a) == Pick(s, k2, b)
    decreases |s|
  {
    if s != [] {
      var p := s[..|s| - 1];
      assert forall x :: x in p ==> x in s;
      PickSameSelection(p, k1, a, k2, b);
    }
  }

  /** Picking distributes over concatenation: the filter keeps the order of its input. */
  lemma {:induction false} PickAppend<T(!new), K(!new)>(a: seq<T>, b: seq<T>, key: T -> K, ks: set<K>)
    ensures Pick(a + b, key, ks) == Pick(a, key, ks) + Pick(b, key, ks)
    decreases |b|
  {
    if b == [] {
      assert a + b == a;
    } else {
      var b' := b[..|b| - 1];
      assert (a + b)[..|a + b| - 1] == a + b';
      PickAppend(a, b', key, ks);
    }
  }

  /** A one-element input is kept exactly when its key is selected. */
  lemma PickSingle<T(!new), K(!new)>(x: T, key: T -> K, ks: set<K>)
    ensures Pick([x], key, ks) == if key(x) in ks then [x] else []
  {
    assert [x][..0] == [];
  }

  /** Nothing is dropped when every key is selected. */
  lemma {:induction false} PickAll<T(!new), K(!new)>(s: seq<T>, key: T -> K, ks: set<K>)
    requires forall x :: x in s ==> key(x) in ks
    ensures Pick(s, key, ks) == s
    decreases |s|
  {
    if s != [] {
      var p := s[..|s| - 1];
      var last := s[|s| - 1];
      assert Pick(p, key, ks) == p by {
        forall x | x in p
          ensures key(x) in ks
        {
          assert x in s;
        }
        PickAll(p, key, ks);
      }
      assert key(last) in ks;
      assert s == p + [last];
    }
  }

  /** Two picks commute; both keep the elements selected by both, in order. */
  lemma {:induction false} PickCommute<T(!new), K(!new), L(!new)>(s: seq<T>, k1: T -> K, a: set<K>, k2: T -> L, b: set<L>)
    ensures Pick(Pick(s, k1, a), k2, b) == Pick(Pick(s, k2, b), k1, a)
    decreases |s|
  {
    if s != [] {
      var p := s[..|s| - 1];
      var x := s[|s| - 1];
      PickCommute(p, k1, a, k2, b);
      var t1 := if k1(x) in a then [x] else [];
      var t2 := if k2(x) in b then [x] else [];
      PickAppend(Pick(p, k1, a), t1, k2, b);
      PickAppend(Pick(p, k2, b), t2, k1, a);
      PickSingle(x, k1, a);
      PickSingle(x, k2, b);
    }
  }

  /** Picking by two disjoint key sets splits the picked elements between them. */
  lemma {:induction false} PickDisjointUnion<T(!new), K(!new)>(s: seq<T>, key: T -> K, a: set<K>, b: set<K>)
    requires a !! b
    ensures |Pick(s, key, a + b)| == |Pick(s, key, a)| + |Pick(s, key, b)|
    decreases |s|
  {
    if s != [] {
      PickDisjointUnion(s[..|s| - 1], key, a, b);
    }
  }

  /** Sum of a sequence of naturals. */
  function Sum(s: seq<nat>): nat
  {
    if s == [] then 0 else s[0] + Sum(s[1..])
  }

  lemma {:induction false} SumAppend(a: seq<nat>, b: seq<nat>)
    ensures Sum(a + b) == Sum(a) + Sum(b)
    decreases |a|
  {
    if a == [] {
      assert a + b == b;
    } else {
      assert (a + b)[1..] == a[1..] + b;
      SumAppend(a[1..], b);
    }
  }

  lemma {:induction false} SumUpdate(s: seq<nat>, i: nat, v: nat)
    requires i < |s|
    ensures Sum(s[i := v]) == Sum(s) - s[i] + v
    decreases |s|
  {
    if i > 0 {
      assert s[i := v][1..] == s[1..][i - 1 := v];
      SumUpdate(s[1..], i - 1, v);
    }
  }

  /** Splitting off the element at position `d`. */
  lemma SumFrom(s: seq<nat>, d: nat)
    requires d < |s|
    ensures Sum(s[d..]) == s[d] + Sum(s[d + 1..])
  {
    assert s[d..][1..] == s[d + 1..];
  }

  /** Bucket sizes. */
  function Sizes<T>(b: seq<seq<T>>): (r: seq<nat>)
    ensures |r| == |b| && forall i :: 0 <= i < |b| ==> r[i] == |b[i]|
  {
    seq(|b|, i requires 0 <= i < |b| => |b[i]|)
  }

  /** The sizes of a list of lists grow by the size of the list appended. */
  lemma SumSizesSnoc<T>(b: seq<seq<T>>)
    requires b != []
    ensures Sum(Sizes(b)) == Sum(Sizes(b[..|b| - 1])) + |b[|b| - 1]|
  {
    assert Sizes(b) == Sizes(b[..|b| - 1]) + [|b[|b| - 1]|];
    SumAppend(Sizes(b[..|b| - 1]), [|b[|b| - 1]|]);
  }

  function Keys<K, V>(g: seq<(K, V)>): (r: seq<K>)
    ensures |r| == |g| && forall i :: 0 <= i < |g| ==> r[i] == g[i].0
  {
    seq(|g|, i requires 0 <= i < |g| => g[i].0)
  }

  function Values<K, V>(g: seq<(K, V)>): (r: seq<V>)
    ensures |r| == |g| && forall i :: 0 <= i < |g| ==> r[i] == g[i].1
  {
    seq(|g|, i requires 0 <= i < |g| => g[i].1)
  }

  lemma SizesValuesCons<K, T>(p: (K, seq<T>), g: seq<(K, seq<T>)>)
    ensures Sizes(Values([p] + g)) == [|p.1|] + Sizes(Values(g))
  {
  }

  lemma KeysCons<K, V>(p: (K, V), g: seq<(K, V)>)
    ensures Keys([p] + g) == [p.0] + Keys(g)
  {
  }

  ghost predicate Distinct<T>(s: seq<T>)
  {
    forall i, j :: 0 <= i < j < |s| ==> s[i] != s[j]
  }

  ghost predicate DistinctKeys<K, V>(g: seq<(K, V)>)
  {
    forall i, j :: 0 <= i < j < |g| ==> g[i].0 != g[j].0
  }

  /** Position of the pair keyed `k`, if there is one. */
  function Find<K(==, !new), V>(g: seq<(K, V)>, k: K): (r: Option<nat>)
    ensures r.Some? ==> r.value < |g| && g[r.value].0 == k
    ensures r.None? <==> k !in Keys(g)
  {
    if g == [] then None
    else if g[0].0 == k then Some(0)
    else
      match Find(g[1..], k)
      case None => None
      case Some(i) => Some(i + 1)
  }

  /** The value stored under `k`, or the empty sequence when there is none
      (the `contr[k] || []` idiom). */
  function Lookup<K(==, !new), T>(g: seq<(K, seq<T>)>, k: K): (r: seq<T>)
    ensures DistinctKeys(g) ==> forall i :: 0 <= i < |g| && g[i].0 == k ==> r == g[i].1
    ensures k !in Keys(g) ==> r == []
  {
    match Find(g, k)
    case None => []
    case Some(i) => g[i].1
  }

  /** One step of grouping: append `x` to the bucket keyed `k`, creating the
      bucket at the end when it is new; a missing key drops `x`. */
  function Add<T, K(==, !new)>(g: seq<(K, seq<T>)>, k: Option<K>, x: T): seq<(K, seq<T>)>
  {
    match k
    case None => g
    case Some(k) =>
      match Find(g, k)
      case Some(i) => g[i := (k, g[i].1 + [x])]
      case None => g + [(k, [x])]
  }

  /** Each bucket of `g` holds, in order, exactly the elements of `s` with its key. */
  ghost predicate BucketsExact<T(!new), K(!new)>(g: seq<(K, seq<T>)>, s: seq<T>, key: T -> Option<K>)
  {
    forall i :: 0 <= i < |g| ==> g[i].1 == Pick(s, key, {Some(g[i].0)})
  }

  /** The keys of `g` are exactly the keys that occur in `s`. */
  ghost predicate KeysOccur<T(!new), K(!new)>(g: seq<(K, seq<T>)>, s: seq<T>, key: T -> Option<K>)
  {
    forall k :: k in Keys(g) <==> exists x :: x in s && key(x) == Some(k)
  }

  ghost predicate NoEmptyBucket<K, T>(g: seq<(K, seq<T>)>)
  {
    forall i :: 0 <= i < |g| ==> g[i].1 != []
  }

  /** `g` groups `s` by `key`: keys are distinct, each bucket holds, in
      order, exactly the elements with that key, no bucket is empty, and the
      keys are exactly the keys that occur. */
  ghost predicate Grouped<T(!new), K(!new)>(g: seq<(K, seq<T>)>, s: seq<T>, key: T -> Option<K>)
  {
    DistinctKeys(g) && BucketsExact(g, s, key) && NoEmptyBucket(g) && KeysOccur(g, s, key)
  }

  lemma AddDistinct<T, K(!new)>(g0: seq<(K, seq<T>)>, k: Option<K>, x: T)
    requires DistinctKeys(g0)
    ensures DistinctKeys(Add(g0, k, x))
  {
  }

  lemma AddNoEmpty<T, K(!new)>(g0: seq<(K, seq<T>)>, k: Option<K>, x: T)
    requires NoEmptyBucket(g0)
    ensures NoEmptyBucket(Add(g0, k, x))
  {
  }

  lemma AddExact<T(!new), K(!new)>(g0: seq<(K, seq<T>)>, p: seq<T>, x: T, key: T -> Option<K>)
    requires DistinctKeys(g0) && BucketsExact(g0, p, key) && KeysOccur(g0, p, key)
    ensures BucketsExact(Add(g0, key(x), x), p + [x], key)
  {
    var s := p + [x];
    assert s[..|s| - 1] == p;
    var g := Add(g0, key(x), x);
    forall i | 0 <= i < |g|
      ensures g[i].1 == Pick(s, key, {Some(g[i].0)})
    {
      var k := g[i].0;
      assert Pick(s, key, {Some(k)}) == Pick(p, key, {Some(k)}) + (if key(x) == Some(k) then [x] else []);
      if i >= |g0| {
        assert key(x) == Some(k);
        assert k !in Keys(g0);
        PickEmpty(p, key, {Some(k)});
      } else if key(x) == Some(k) {
        assert Find(g0, k) == Some(i);
      } else {
        assert g[i] == g0[i];
      }
    }
  }

  lemma AddKeys<T(!new), K(!new)>(g0: seq<(K, seq<T>)>, p: seq<T>, x: T, key: T -> Option<K>)
    requires KeysOccur(g0, p, key)
    ensures KeysOccur(Add(g0, key(x), x), p + [x], key)
  {
    var s := p + [x];
    var g := Add(g0, key(x), x);
    forall k
      ensures k in Keys(g) <==> exists y :: y in s && key(y) == Some(k)
    {
      if k in Keys(g) {
        var i :| 0 <= i < |g| && g[i].0 == k;
        if i < |g0| {
          assert g0[i].0 == k;
          assert Keys(g0)[i] == k;
          var y :| y in p && key(y) == Some(k);
          assert y in s;
        } else {
          assert x in s && key(x) == Some(k);
        }
      }
      if exists y :: y in s && key(y) == Some(k) {
        var y :| y in s && key(y) == Some(k);
        if y in p {
          assert k in Keys(g0);
          var i :| 0 <= i < |g0| && Keys(g0)[i] == k;
          assert Keys(g)[i] == k;
        } else {
          assert y == x;
          match Find(g0, k)
          case Some(i) =>
            assert Keys(g)[i] == k;
          case None =>
            assert Keys(g)[|g0|] == k;
        }
      }
    }
  }

  /** Groups `s` by `key` into buckets ordered by first occurrence. */
  function GroupBy<T(==, !new), K(==, !new)>(s: seq<T>, key: T -> Option<K>): (g: seq<(K, seq<T>)>)
    ensures Grouped(g, s, key)
  {
    if s == [] then []
    else
      var p := s[..|s| - 1];
      var x := s[|s| - 1];
      assert s == p + [x];
      var g0 := GroupBy(p, key);
      AddDistinct(g0, key(x), x);
      AddNoEmpty(g0, key(x), x);
      AddExact(g0, p, x, key);
      AddKeys(g0, p, x, key);
      Add(g0, key(x), x)
  }

  /** Sizes after one grouping step. */
  lemma AddTotal<T, K(!new)>(g0: seq<(K, seq<T>)>, k: Option<K>, x: T)
    ensures Sum(Sizes(Values(Add(g0, k, x)))) == Sum(Sizes(Values(g0))) + (if k.Some? then 1 else 0)
  {
    var z0 := Sizes(Values(g0));
    var z := Sizes(Values(Add(g0, k, x)));
    match k
    case None =>
    case Some(k) =>
      match Find(g0, k)
      case Some(i) =>
        assert z == z0[i := z0[i] + 1];
        SumUpdate(z0, i, z0[i] + 1);
      case None =>
        assert z == z0 + [1];
        SumAppend(z0, [1]);
  }

  /** Grouping loses exactly the elements without a key. */
  lemma {:induction false} GroupByTotal<T(!new), K(!new)>(s: seq<T>, key: T -> Option<K>)
    ensures Sum(Sizes(Values(GroupBy(s, key)))) + |Pick(s, key, {None})| == |s|
    decreases |s|
  {
    if s != [] {
      var p := s[..|s| - 1];
      var x := s[|s| - 1];
      GroupByTotal(p, key);
      AddTotal(GroupBy(p, key), key(x), x);
    }
  }

  /** The integers 0 .. n-1. */
  function Below(n: nat): (r: set<int>)
    ensures forall j :: j in r <==> 0 <= j < n
  {
    if n == 0 then {} else Below(n - 1) + {n - 1}
  }

  /** The first `m` buckets of a partition by an integer key hold the elements
      whose key is below `m`. */
  lemma {:induction false} PrefixSizes<T(!new)>(s: seq<T>, key: T -> int, b: seq<seq<T>>, m: nat)
    requires m <= |b|
    requires forall j :: 0 <= j < |b| ==> b[j] == Pick(s, key, {j})
    ensures Sum(Sizes(b[..m])) == |Pick(s, key, Below(m))|
  {
    if m == 0 {
      PickEmpty(s, key, Below(0));
    } else {
      PrefixSizes(s, key, b, m - 1);
      assert Sizes(b[..m]) == Sizes(b[..m - 1]) + [|b[m - 1]|];
      SumAppend(Sizes(b[..m - 1]), [|b[m - 1]|]);
      assert Below(m) == Below(m - 1) + {m - 1};
      PickDisjointUnion(s, key, Below(m - 1), {m - 1});
    }
  }

  /** Buckets selecting each of the keys 0 .. n-1 of an integer key, when all
      keys lie in that range, together hold every element exactly once. */
  lemma PartitionSizes<T(!new)>(s: seq<T>, key: T -> int, n: nat, b: seq<seq<T>>)
    requires forall x :: x in s ==> 0 <= key(x) < n
    requires |b| == n
    requires forall j :: 0 <= j < n ==> b[j] == Pick(s, key, {j})
    ensures Sum(Sizes(b)) == |s|
  {
    PrefixSizes(s, key, b, n);
    assert b[..n] == b;
    PickAll(s, key, Below(n));
  }
}

=== FILE: sorting.dfy ===
/** Stable insertion sort by an integer key, used for the timestamp order of
    the contribution list and the descending count order of the most edited
    titles. `SortSorted` relies on the stability, as `Array.prototype.sort`
    is stable since ECMAScript 2019. Two sorted orders of the same elements
    differ only among equal keys (`SortedSameKeys`). */
module Sorting {

  ghost predicate SortedBy<T>(s: seq<T>, key: T -> int)
  {
    forall i, j :: 0 <= i < j < |s| ==> key(s[i]) <= key(s[j])
  }

  /** Inserts `x` before the first element whose key is not smaller. */
  function Insert<T>(x: T, s: seq<T>, key: T -> int): (r: seq<T>)
    ensures |r| == |s| + 1
  {
    if s == [] || key(x) <= key(s[0]) then [x] + s
    else [s[0]] + Insert(x, s[1..], key)
  }

  lemma {:induction false} InsertHead<T>(x: T, s: seq<T>, key: T -> int)
    ensures Insert(x, s, key)[0] == x || (|s| > 0 && Insert(x, s, key)[0] == s[0])
  {
  }

  lemma {:induction false} InsertSorted<T>(x: T, s: seq<T>, key: T -> int)
    requires SortedBy(s, key)
    ensures SortedBy(Insert(x, s, key), key)
    decreases |s|
  {
    if s != [] && key(x) > key(s[0]) {
      var t := Insert(x, s[1..], key);
      InsertSorted(x, s[1..], key);
      InsertHead(x, s[1..], key);
      var r := [s[0]] + t;
      assert forall i :: 1 <= i < |r| ==> r[i] == t[i - 1];
      assert key(r[0]) <= key(t[0]);
    }
  }

  lemma {:induction false} InsertPerm<T>(x: T, s: seq<T>, key: T -> int)
    ensures multiset(Insert(x, s, key)) == multiset(s) + multiset{x}
    decreases |s|
  {
    if s != [] && key(x) > key(s[0]) {
      InsertPerm(x, s[1..], key);
      assert s == [s[0]] + s[1..];
    }
  }

  /** Sorts `s` by ascending key. */
  function SortBy<T>(s: seq<T>, key: T -> int): (r: seq<T>)
    ensures SortedBy(r, key)
    ensures multiset(r) == multiset(s)
    ensures |r| == |s|
  {
    if s == [] then []
    else
      var t := SortBy(s[1..], key);
      InsertSorted(s[0], t, key);
      InsertPerm(s[0], t, key);
      assert s == [s[0]] + s[1..];
      Insert(s[0], t, key)
  }

  /** Sorting an already sorted sequence leaves it unchanged: the sort moves
      an element only past a strictly smaller key. */
  lemma {:induction false} SortSorted<T>(s: seq<T>, key: T -> int)
    requires SortedBy(s, key)
    ensures SortBy(s, key) == s
    decreases |s|
  {
    if s != [] {
      SortSorted(s[1..], key);
      assert s == [s[0]] + s[1..];
    }
  }

  /** Sorting twice is sorting once. */
  lemma SortIdempotent<T>(s: seq<T>, key: T -> int)
    ensures SortBy(SortBy(s, key), key) == SortBy(s, key)
  {
    SortSorted(SortBy(s, key), key);
  }

  /** Removing one element keeps a sequence sorted. */
  lemma RemoveSorted<T>(b: seq<T>, j: nat, key: T -> int)
    requires SortedBy(b, key) && j < |b|
    ensures SortedBy(b[..j] + b[j + 1..], key)
  {
    var b' := b[..j] + b[j + 1..];
    forall p, q | 0 <= p < q < |b'|
      ensures key(b'[p]) <= key(b'[q])
    {
      var p' := if p < j then p else p + 1;
      var q' := if q < j then q else q + 1;
      assert b'[p] == b[p'] && b'[q] == b[q'];
    }
  }

  /** Taking the same element out of two sequences with the same elements. */
  lemma RemoveSame<T>(a: seq<T>, b: seq<T>, j: nat)
    requires multiset(a) == multiset(b) && a != [] && j < |b| && b[j] == a[0]
    ensures multiset(a[1..]) == multiset(b[..j] + b[j + 1..])
  {
    var x := a[0];
    assert b == b[..j] + [x] + b[j + 1..];
    assert multiset(b) == multiset(b[..j]) + multiset{x} + multiset(b[j + 1..]);
    assert multiset(b[..j] + b[j + 1..]) == multiset(b[..j]) + multiset(b[j + 1..]);
    assert a == [x] + a[1..];
    assert multiset(a) == multiset(a[1..]) + multiset{x};
    assert multiset(a[1..]) == multiset(a) - multiset{x};
    assert multiset(b[..j]) + multiset(b[j + 1..]) == multiset(b) - multiset{x};
  }

  /** Two sorted sequences with the same elements have the same key at
      every position: they differ at most in the order of equal keys. */
  lemma {:induction false} SortedSameKeys<T>(a: seq<T>, b: seq<T>, key: T -> int)
    requires SortedBy(a, key) && SortedBy(b, key) && multiset(a) == multiset(b)
    ensures |a| == |b|
    ensures forall i :: 0 <= i < |a| ==> key(a[i]) == key(b[i])
    decreases |a|
  {
    assert |a| == |multiset(a)| == |b|;
    if a != [] {
      var x := a[0];
      assert x in multiset(b);
      var j :| 0 <= j < |b| && b[j] == x;
      assert b[0] in multiset(a);
      var i0 :| 0 <= i0 < |a| && a[i0] == b[0];
      assert key(x) == key(b[0]);
      var b' := b[..j] + b[j + 1..];
      RemoveSame(a, b, j);
      RemoveSorted(b, j, key);
      assert SortedBy(a[1..], key);
      SortedSameKeys(a[1..], b', key);
      forall i | 0 <= i < |a|
        ensures key(a[i]) == key(b[i])
      {
        if i > 0 {
          assert key(a[i]) == key(b'[i - 1]);
          if i - 1 < j {
            assert b'[i - 1] == b[i - 1];
            assert key(b[0]) <= key(b[i - 1]) <= key(b[i]) <= key(b[j]);
          } else {
            assert b'[i - 1] == b[i];
          }
        }
      }
    }
  }
}

=== FILE: streak.dfy ===
/** The longest streak of consecutive days with contributions. The records
    are sorted by timestamp and each is reduced to the start of its local
    day; the conversion to local midnight is a parameter. A streak is a run
    of successive day values that are equal or one day apart. */
module Streak {
  import opened Seqs
  import opened Calendar
  import opened Contribs
  import Sorting

  /** Two successive day values belong to one streak. */
  predicate SameOrNext(d1: int, d2: int)
  {
    d1 == d2 || d2 - d1 == MsPerDay
  }

  /** Positions `i` .. `j` of `days` form one streak. */
  ghost predicate Linked(days: seq<int>, i: int, j: int)
    requires 0 <= i <= j < |days|
  {
    forall m :: i <= m < j ==> SameOrNext(days[m], days[m + 1])
  }

  /** Day values only grow along a streak. */
  lemma {:induction false} LinkedMonotone(days: seq<int>, i: int, j: int)
    requires 0 <= i <= j < |days| && Linked(days, i, j)
    ensures days[i] <= days[j]
    decreases j - i
  {
    if i < j {
      assert SameOrNext(days[i], days[i + 1]);
      LinkedMonotone(days, i + 1, j);
    }
  }

  /** `(s, e)` are the first and last day of a streak of at least two records. */
  ghost predicate SegmentOf(days: seq<int>, s: int, e: int)
  {
    exists i, j :: 0 <= i < j < |days| && days[i] == s && days[j] == e && Linked(days, i, j)
  }

  /** Some two successive records lie in one streak. */
  ghost predicate HasPair(days: seq<int>)
  {
    exists m :: 0 <= m < |days| - 1 && SameOrNext(days[m], days[m + 1])
  }

  // ------------------------------------------------------------ as written

  /** The streak being built: none, a single day, or a span. */
  datatype Run = NoRun | Open(start: int) | Span(start: int, end: int)

  /** The fold state: the longest committed streak and the current run. */
  datatype StreakState = StreakState(best: Option<(int, int)>, cur: Run)

  function Length(p: (int, int)): int { p.1 - p.0 }

  /** One record of `longestStreak`. A single day followed by a day that
      does not continue it is dropped together with that day; a span that is
      broken is committed when it is the first or strictly longer than the
      stored one, and the breaking day is dropped. */
  function Step(st: StreakState, d: int): (r: StreakState)
    ensures r.best == st.best || (r.best.Some? && (st.best.None? || Length(r.best.value) > Length(st.best.value)))
    ensures st.cur.Span? && !SameOrNext(st.cur.end, d) ==> r.cur == NoRun
    ensures st.cur.NoRun? ==> r == StreakState(st.best, Open(d))
    ensures st.cur.Open? && SameOrNext(st.cur.start, d) ==> r == StreakState(st.best, Span(st.cur.start, d))
    ensures st.cur.Open? && !SameOrNext(st.cur.start, d) ==> r == StreakState(st.best, NoRun)
    ensures st.cur.Span? && SameOrNext(st.cur.end, d) ==> r == StreakState(st.best, Span(st.cur.start, d))
    ensures st.cur.Span? && !SameOrNext(st.cur.end, d) &&
            (st.best.None? || Length((st.cur.start, st.cur.end)) > Length(st.best.value)) ==>
      r.best == Some((st.cur.start, st.cur.end))
    ensures r.best != st.best ==>
      st.cur.Span? && !SameOrNext(st.cur.end, d) && r.best == Some((st.cur.start, st.cur.end))
  {
    match st.cur
    case NoRun => StreakState(st.best, Open(d))
    case Open(s) => if SameOrNext(s, d) then StreakState(st.best, Span(s, d)) else StreakState(st.best, NoRun)
    case Span(s, e) =>
      if SameOrNext(e, d) then StreakState(st.best, Span(s, d))
      else if st.best.None? || e - s > Length(st.best.value) then StreakState(Some((s, e)), NoRun)
      else StreakState(st.best, NoRun)
  }

  /** The state after the records `days`. */
  function Fold(days: seq<int>): StreakState
  {
    if days == [] then StreakState(None, NoRun)
    else Step(Fold(days[..|days| - 1]), days[|days| - 1])
  }

  /** What the fold state says about the records seen so far: the best
      streak is a streak of them, and the current run ends at the last one. */
  ghost predicate Valid(st: StreakState, days: seq<int>)
  {
    (st.best.Some? ==> SegmentOf(days, st.best.value.0, st.best.value.1))
    && (st.cur.Open? ==> |days| > 0 && days[|days| - 1] == st.cur.start)
    && (st.cur.Span? ==>
          exists i :: (0 <= i < |days| - 1 && days[i] == st.cur.start &&
                       days[|days| - 1] == st.cur.end && Linked(days, i, |days| - 1)))
  }

  lemma SegmentGrows(p: seq<int>, d: int, s: int, e: int)
    requires SegmentOf(p, s, e)
    ensures SegmentOf(p + [d], s, e)
  {
    var q := p + [d];
    var i, j :| 0 <= i < j < |p| && p[i] == s && p[j] == e && Linked(p, i, j);
    assert forall m :: i <= m <= j ==> q[m] == p[m];
    assert Linked(q, i, j);
  }

  lemma StepValid(st: StreakState, p: seq<int>, d: int)
    requires Valid(st, p)
    ensures Valid(Step(st, d), p + [d])
  {
    var q := p + [d];
    var r := Step(st, d);
    if st.best.Some? {
      SegmentGrows(p, d, st.best.value.0, st.best.value.1);
    }
    match st.cur
    case NoRun =>
    case Open(s) =>
      if SameOrNext(s, d) {
        assert q[|p| - 1] == s && q[|p|] == d;
        assert Linked(q, |p| - 1, |p|);
      }
    case Span(s, e) =>
      var i :| 0 <= i < |p| - 1 && p[i] == s && p[|p| - 1] == e && Linked(p, i, |p| - 1);
      assert forall m :: 0 <= m < |p| ==> q[m] == p[m];
      assert Linked(q, i, |p| - 1);
      if SameOrNext(e, d) {
        assert Linked(q, i, |p|);
      } else {
        assert SegmentOf(q, s, e);
      }
  }

  lemma {:induction false} FoldValid(days: seq<int>)
    ensures Valid(Fold(days), days)
    decreases |days|
  {
    if days != [] {
      var p := days[..|days| - 1];
      FoldValid(p);
      StepValid(Fold(p), p, days[|days| - 1]);
      assert p + [days[|days| - 1]] == days;
    }
  }

  /** `longestStreak` as written, on the day values of the sorted records:
      nothing, or the first and last day of a streak of at least two
      records, the first not after the last. */
  function LongestStreakAsWritten(days: seq<int>): (r: seq<int>)
    ensures r == [] || (|r| == 2 && r[0] <= r[1] && SegmentOf(days, r[0], r[1]))
  {
    var st := Fold(days);
    FoldValid(days);
    if st.best.None? then []
    else
      assert st.best.value.0 <= st.best.value.1 by {
        var i, j :| 0 <= i < j < |days| && days[i] == st.best.value.0 && days[j] == st.best.value.1 && Linked(days, i, j);
        LinkedMonotone(days, i, j);
      }
      [st.best.value.0, st.best.value.1]
  }

  /** Stored streak `b` is at least as long as stored streak `a`. */
  predicate NoShorter(b: Option<(int, int)>, a: Option<(int, int)>)
  {
    a.None? || (b.Some? && Length(b.value) >= Length(a.value))
  }

  /** The stored streak never gets shorter as records are added. */
  lemma {:induction false} BestNeverShrinks(days: seq<int>, k: nat)
    requires k <= |days|
    ensures NoShorter(Fold(days).best, Fold(days[..k]).best)
    decreases |days| - k
  {
    if k < |days| {
      BestNeverShrinks(days, k + 1);
      assert days[..k + 1][..k] == days[..k];
      assert Fold(days[..k + 1]) == Step(Fold(days[..k]), days[k]);
    } else {
      assert days[..k] == days;
    }
  }

  /** A record that continues the current span never changes the stored
      streak: only a break commits one. */
  lemma ContinuingKeepsBest(days: seq<int>, d: int)
    requires Fold(days).cur.Span? && SameOrNext(Fold(days).cur.end, d)
    ensures Fold(days + [d]).best == Fold(days).best
  {
    assert (days + [d])[..|days|] == days;
  }

  /** The fold over one unbroken streak stores nothing: its state is just
      the open run from the first day to the last. */
  lemma {:induction false} UnbrokenFold(days: seq<int>)
    requires |days| > 0 && Linked(days, 0, |days| - 1)
    ensures Fold(days) == if |days| == 1 then StreakState(None, Open(days[0]))
                          else StreakState(None, Span(days[0], days[|days| - 1]))
    decreases |days|
  {
    var n := |days|;
    if n == 1 {
      assert days[..0] == [];
    } else {
      var p := days[..n - 1];
      assert Linked(p, 0, n - 2) by {
        forall m | 0 <= m < n - 2
          ensures SameOrNext(p[m], p[m + 1])
        {
          assert SameOrNext(days[m], days[m + 1]);
        }
      }
      UnbrokenFold(p);
      assert SameOrNext(days[n - 2], days[n - 1]);
    }
  }

  /** A streak of at least two records that is broken is reported: when the
      first `k` records form one streak and the next record breaks it, the
      written method returns a streak at least as long as that one. */
  lemma FirstBreakReported(days: seq<int>, k: int)
    requires 2 <= k < |days| && Linked(days, 0, k - 1) && !SameOrNext(days[k - 1], days[k])
    ensures var r := LongestStreakAsWritten(days);
      |r| == 2 && r[1] - r[0] >= days[k - 1] - days[0]
  {
    var p := days[..k];
    assert Linked(p, 0, k - 1) by {
      forall m | 0 <= m < k - 1
        ensures SameOrNext(p[m], p[m + 1])
      {
        assert SameOrNext(days[m], days[m + 1]);
      }
    }
    UnbrokenFold(p);
    assert days[..k + 1][..k] == p;
    assert Fold(days[..k + 1]).best == Some((days[0], days[k - 1]));
    BestNeverShrinks(days, k + 1);
  }

  /** A streak still open at the end is never stored: when all the records
      form one streak, the written fold reports none. */
  lemma WholeStreakLost(days: seq<int>)
    requires |days| > 0 && Linked(days, 0, |days| - 1)
    ensures LongestStreakAsWritten(days) == []
  {
    UnbrokenFold(days);
  }

  /** The smallest instance: two consecutive days give no streak. */
  lemma OpenStreakLost()
    ensures SameOrNext(0, MsPerDay)
    ensures LongestStreakAsWritten([0, MsPerDay]) == []
  {
    assert [0][..0] == [];
    assert Fold([0]) == StreakState(None, Open(0));
    assert [0, MsPerDay][..1] == [0];
    assert Fold([0, MsPerDay]) == StreakState(None, Span(0, MsPerDay));
  }

  /** The day that breaks a streak is dropped instead of starting the next
      one: for the days 0, 1, 3, 4, 5, 7 the written fold reports days 0 to 1
      although days 3 to 5 form a longer streak. */
  lemma BreakingDayLost()
    ensures var days := [0, MsPerDay, 3 * MsPerDay, 4 * MsPerDay, 5 * MsPerDay, 7 * MsPerDay];
      LongestStreakAsWritten(days) == [0, MsPerDay] &&
      Linked(days, 2, 4) && days[4] - days[2] > MsPerDay - 0
  {
    var D := MsPerDay;
    var d1, d2, d3 := [0], [0, D], [0, D, 3 * D];
    var d4, d5 := [0, D, 3 * D, 4 * D], [0, D, 3 * D, 4 * D, 5 * D];
    var d6 := [0, D, 3 * D, 4 * D, 5 * D, 7 * D];
    assert d1[..0] == [];
    assert Fold(d1) == StreakState(None, Open(0));
    assert d2[..1] == d1;
    assert Fold(d2) == StreakState(None, Span(0, D));
    assert d3[..2] == d2;
    assert Fold(d3) == StreakState(Some((0, D)), NoRun);
    assert d4[..3] == d3;
    assert Fold(d4) == StreakState(Some((0, D)), Open(4 * D));
    assert d5[..4] == d4;
    assert Fold(d5) == StreakState(Some((0, D)), Span(4 * D, 5 * D));
    assert d6[..5] == d5;
    assert Fold(d6) == StreakState(Some((0, D)), NoRun);
  }

  /** A lone day followed by a day that does not continue it is dropped
      together with that day: for the days 0, 5, 6, 8 the written fold
      reports no streak, although days 5 and 6 form one. */
  lemma LoneDayLost()
    ensures var days := [0, 5 * MsPerDay, 6 * MsPerDay, 8 * MsPerDay];
      LongestStreakAsWritten(days) == [] && Linked(days, 1, 2)
  {
    var D := MsPerDay;
    var d1, d2, d3, d4 := [0], [0, 5 * D], [0, 5 * D, 6 * D], [0, 5 * D, 6 * D, 8 * D];
    assert d1[..0] == [];
    assert Fold(d1) == StreakState(None, Open(0));
    assert d2[..1] == d1;
    assert Fold(d2) == StreakState(None, NoRun);
    assert d3[..2] == d2;
    assert Fold(d3) == StreakState(None, Open(6 * D));
    assert d4[..3] == d3;
    assert Fold(d4) == StreakState(None, NoRun);
  }

  // -------------------------------------------------------------- intended

  /** `st` starts the streak that ends at position `k - 1`: it cannot be
      extended to the left. */
  ghost predicate RunFrom(days: seq<int>, st: int, k: int)
  {
    0 <= st < k <= |days| && Linked(days, st, k - 1) && (st == 0 || !SameOrNext(days[st - 1], days[st]))
  }

  /** Some two successive records among the first `k` lie in one streak. */
  ghost predicate PairBefore(days: seq<int>, k: int)
    requires k <= |days|
  {
    exists m :: 0 <= m < k - 1 && SameOrNext(days[m], days[m + 1])
  }

  /** Positions `bi` .. `bj` hold a longest streak among the first `k`
      records, when `found`; and `found` says whether there is any. */
  ghost predicate BestBefore(days: seq<int>, k: int, found: bool, bi: int, bj: int)
    requires 0 <= k <= |days|
  {
    (found <==> PairBefore(days, k))
    && (found ==> 0 <= bi < bj < k && Linked(days, bi, bj))
    && (found ==> forall i, j :: 0 <= i < j < k && Linked(days, i, j) ==> days[j] - days[i] <= days[bj] - days[bi])
  }

  /** Every streak ending at `k` starts inside the current run. */
  lemma StartsInRun(days: seq<int>, st: int, k: int)
    requires k < |days| && RunFrom(days, st, k)
    ensures forall i :: 0 <= i < k && Linked(days, i, k) ==> st <= i
  {
    forall i | 0 <= i < k && Linked(days, i, k)
      ensures st <= i
    {
      if st > 0 {
        assert !SameOrNext(days[st - 1], days[st]);
      }
    }
  }

  /** The current run, continued at `k`, is the longest streak ending at `k`. */
  lemma EndingAt(days: seq<int>, st: int, k: int)
    requires k < |days| && RunFrom(days, st, k) && SameOrNext(days[k - 1], days[k])
    ensures RunFrom(days, st, k + 1)
    ensures forall i :: 0 <= i < k && Linked(days, i, k) ==> days[k] - days[i] <= days[k] - days[st]
  {
    assert Linked(days, st, k);
    StartsInRun(days, st, k);
    forall i | 0 <= i < k && Linked(days, i, k)
      ensures days[st] <= days[i]
    {
      assert Linked(days, st, i);
      LinkedMonotone(days, st, i);
    }
  }

  /** A streak that continues at `k` keeps or replaces the best. */
  lemma ExtendBest(days: seq<int>, st: int, k: int, found: bool, bi: int, bj: int)
    requires k < |days| && RunFrom(days, st, k) && SameOrNext(days[k - 1], days[k])
    requires BestBefore(days, k, found, bi, bj)
    ensures var upd := !found || days[k] - days[st] > days[bj] - days[bi];
      BestBefore(days, k + 1, true, if upd then st else bi, if upd then k else bj)
  {
    var upd := !found || days[k] - days[st] > days[bj] - days[bi];
    var nbi, nbj := if upd then st else bi, if upd then k else bj;
    EndingAt(days, st, k);
    assert PairBefore(days, k + 1) by {
      assert SameOrNext(days[k - 1], days[k]);
    }
    assert Linked(days, nbi, nbj);
    var best := days[nbj] - days[nbi];
    assert days[k] - days[st] <= best;
    assert found ==> days[bj] - days[bi] <= best;
    forall i, j | 0 <= i < j < k + 1 && Linked(days, i, j)
      ensures days[j] - days[i] <= best
    {
      if j < k {
        assert SameOrNext(days[i], days[i + 1]);
        assert PairBefore(days, k);
        assert days[j] - days[i] <= days[bj] - days[bi];
      } else {
        assert days[k] - days[i] <= days[k] - days[st];
      }
    }
  }

  /** A record that does not continue the streak starts a new one. */
  lemma BreakBest(days: seq<int>, k: int, found: bool, bi: int, bj: int)
    requires 1 <= k < |days| && !SameOrNext(days[k - 1], days[k])
    requires BestBefore(days, k, found, bi, bj)
    ensures RunFrom(days, k, k + 1)
    ensures BestBefore(days, k + 1, found, bi, bj)
  {
    assert PairBefore(days, k + 1) ==> PairBefore(days, k);
    forall i | 0 <= i < k
      ensures !Linked(days, i, k)
    {
      assert !SameOrNext(days[k - 1], days[k]);
    }
  }

  /** The loop state after the first `k` records: `st` starts the current
      run and `bi` .. `bj` is the best streak so far. */
  ghost predicate Scan(days: seq<int>, k: int, st: int, found: bool, bi: int, bj: int)
  {
    1 <= k <= |days| && RunFrom(days, st, k) && BestBefore(days, k, found, bi, bj)
  }

  /** One loop step: continue the run or start a new one, and keep or
      replace the best streak. */
  lemma Advance(days: seq<int>, k: int, st: int, found: bool, bi: int, bj: int)
    requires k < |days| && Scan(days, k, st, found, bi, bj)
    ensures var ext := SameOrNext(days[k - 1], days[k]);
      var upd := ext && (!found || days[k] - days[st] > days[bj] - days[bi]);
      Scan(days, k + 1, if ext then st else k, found || ext, if upd then st else bi, if upd then k else bj)
  {
    if SameOrNext(days[k - 1], days[k]) {
      ExtendBest(days, st, k, found, bi, bj);
      EndingAt(days, st, k);
    } else {
      BreakBest(days, k, found, bi, bj);
    }
  }

  /** `longestStreak` as intended: every record takes part, a breaking day
      starts the next streak and the streak open at the end is considered.
      The result is empty exactly when no two successive records lie in one
      streak; otherwise it is the first and last day of a streak of maximal
      length, the first not after the last. */
  method LongestStreak(days: seq<int>) returns (r: seq<int>)
    ensures r == [] <==> !HasPair(days)
    ensures r != [] ==> |r| == 2 && r[0] <= r[1] && SegmentOf(days, r[0], r[1])
    ensures r != [] ==> forall i, j :: 0 <= i < j < |days| && Linked(days, i, j) ==> days[j] - days[i] <= r[1] - r[0]
  {
    if |days| == 0 {
      return [];
    }
    var st := 0;
    var found := false;
    var bi, bj := 0, 0;
    var k := 1;
    while k < |days|
      invariant 1 <= k <= |days|
      invariant Scan(days, k, st, found, bi, bj)
    {
      var ext := SameOrNext(days[k - 1], days[k]);
      var upd := ext && (!found || days[k] - days[st] > days[bj] - days[bi]);
      Advance(days, k, st, found, bi, bj);
      bi, bj := if upd then st else bi, if upd then k else bj;
      st, found, k := if ext then st else k, found || ext, k + 1;
    }
    Finish(days, found, bi, bj);
    if found {
      r := [days[bi], days[bj]];
    } else {
      r := [];
    }
  }

  /** After the last record the best streak found is the answer. */
  lemma Finish(days: seq<int>, found: bool, bi: int, bj: int)
    requires 0 < |days| && BestBefore(days, |days|, found, bi, bj)
    ensures found <==> HasPair(days)
    ensures found ==> 0 <= bi < bj < |days| && days[bi] <= days[bj] && SegmentOf(days, days[bi], days[bj])
  {
    if found {
      LinkedMonotone(days, bi, bj);
    }
  }

  /** The day values `longestStreak` folds over: the records by timestamp,
      each mapped to the start of its local day. When `midnight` keeps the
      order of time, the day values never decrease. */
  function DayValues(rs: seq<Edit>, midnight: int -> int): (r: seq<int>)
    ensures |r| == |rs|
    ensures forall i :: 0 <= i < |rs| ==> r[i] == midnight(Sort(rs)[i].ts)
    ensures (forall a, b :: a <= b ==> midnight(a) <= midnight(b)) ==>
      forall i, j :: 0 <= i < j < |r| ==> r[i] <= r[j]
  {
    var sorted := Sort(rs);
    seq(|sorted|, i requires 0 <= i < |sorted| => midnight(sorted[i].ts))
  }

  /** The method sorts a copy, so the streak depends only on which records
      the list holds, not on their order. */
  lemma StreakIgnoresOrder(rs: seq<Edit>, rs': seq<Edit>, midnight: int -> int)
    requires multiset(rs) == multiset(rs')
    ensures DayValues(rs, midnight) == DayValues(rs', midnight)
  {
    var a, b := Sort(rs), Sort(rs');
    Sorting.SortedSameKeys(a, b, EditTs);
    assert forall i :: 0 <= i < |a| ==> a[i].ts == EditTs(a[i]);
  }
}

=== FILE: text.dfy ===
/** Joining a list of words into running text: "a", "a and b",
    "a, b, and c". The separators come from the interface language and are
    parameters. */
module Text {
  import opened Seqs

  /** `Array.prototype.join`: the items separated by `sep`. One item is
      itself, two are `a sep b`, and the text begins with the first item and
      ends with the last. */
  function Join(items: seq<string>, sep: string): (r: string)
    ensures |items| == 1 ==> r == items[0]
    ensures |items| == 2 ==> r == items[0] + sep + items[1]
    ensures |items| > 0 ==> StartsWith(r, items[0]) && EndsWith(r, items[|items| - 1])
  {
    if |items| == 0 then ""
    else if |items| == 1 then items[0]
    else
      var init := items[..|items| - 1];
      var last := items[|items| - 1];
      var p := Join(init, sep);
      assert init[0] == items[0];
      Ends(p, sep + last, items[0], last);
      p + (sep + last)
  }

  /** One more item adds one separator and the item. */
  lemma JoinSnoc(init: seq<string>, x: string, sep: string)
    requires init != []
    ensures Join(init + [x], sep) == Join(init, sep) + sep + x
  {
    var s := init + [x];
    assert s[..|s| - 1] == init;
    assert s[|s| - 1] == x;
  }

  /** Joining two non-empty lists is joining each and putting one more
      separator between them. */
  lemma {:induction false} JoinConcat(a: seq<string>, b: seq<string>, sep: string)
    requires a != [] && b != []
    ensures Join(a + b, sep) == Join(a, sep) + sep + Join(b, sep)
    decreases |b|
  {
    var last := b[|b| - 1];
    if |b| == 1 {
      assert a + b == a + [last];
      JoinSnoc(a, last, sep);
    } else {
      var init := b[..|b| - 1];
      assert b == init + [last];
      assert a + b == (a + init) + [last];
      JoinSnoc(a + init, last, sep);
      JoinSnoc(init, last, sep);
      JoinConcat(a, init, sep);
    }
  }

  /** Total length of the separators between `n` items, `k` characters each. */
  function SeparatorLength(n: nat, k: nat): nat
  {
    if n <= 1 then 0 else SeparatorLength(n - 1, k) + k
  }

  /** There is one separator fewer than items. */
  lemma {:induction false} SeparatorLengthIs(n: nat, k: nat)
    requires n >= 1
    ensures SeparatorLength(n, k) == (n - 1) * k
  {
    if n > 1 {
      SeparatorLengthIs(n - 1, k);
      assert (n - 1) * k == (n - 2) * k + k;
    }
  }

  /** The joined text is as long as the items plus one separator between
      each two. */
  lemma {:induction false} JoinLength(items: seq<string>, sep: string)
    ensures |Join(items, sep)| == Sum(Sizes(items)) + SeparatorLength(|items|, |sep|)
    decreases |items|
  {
    if |items| == 1 {
      assert Sizes(items) == [|items[0]|];
    } else if |items| > 1 {
      var init := items[..|items| - 1];
      var last := items[|items| - 1];
      JoinLength(init, sep);
      SumSizesSnoc(items);
    }
  }

  /** `util.listToText`: nothing for no items, the item itself for one,
      `a sep and sep b` for two, and for more the items joined by `comma`
      with `and sep` in front of the last. The text begins with the first
      item and ends with the last. */
  function ListToText(items: seq<string>, comma: string, sep: string, and: string): (r: string)
    ensures |items| == 0 ==> r == ""
    ensures |items| == 1 ==> r == items[0]
    ensures |items| == 2 ==> r == items[0] + sep + and + sep + items[1]
    ensures |items| > 0 ==> StartsWith(r, items[0]) && EndsWith(r, items[|items| - 1])
  {
    var n := |items|;
    if n == 0 then ""
    else if n == 1 then items[0]
    else if n == 2 then Join(items, sep + and + sep)
    else
      var p := Join(items[..n - 1], comma);
      assert items[..n - 1][0] == items[0];
      Ends(p, comma + and + sep + items[n - 1], items[0], items[n - 1]);
      p + (comma + and + sep + items[n - 1])
  }

  /** Three or more items are the items joined by `comma`, with `and sep`
      in front of the last. */
  lemma ListToTextJoin(items: seq<string>, comma: string, sep: string, and: string)
    requires |items| >= 3
    ensures ListToText(items, comma, sep, and) == Join(items[..|items| - 1] + [and + sep + items[|items| - 1]], comma)
  {
    var n := |items|;
    var init, last := items[..n - 1], items[n - 1];
    var p, y := Join(init, comma), and + sep + last;
    assert ListToText(items, comma, sep, and) == p + (comma + and + sep + last);
    assert Join(init + [y], comma) == p + comma + y by {
      JoinSnoc(init, y, comma);
    }
    assert p + comma + y == p + (comma + and + sep + last);
  }

  /** The text holds every item and, besides them, exactly the separators:
      one `sep and sep` for two items; for more, a `comma` after every item
      but the last and then `and sep`. */
  lemma ListToTextLength(items: seq<string>, comma: string, sep: string, and: string)
    ensures |items| == 2 ==> |ListToText(items, comma, sep, and)| == |items[0]| + |items[1]| + 2 * |sep| + |and|
    ensures |items| >= 3 ==>
      |ListToText(items, comma, sep, and)| == Sum(Sizes(items)) + SeparatorLength(|items|, |comma|) + |and| + |sep|
  {
    var n := |items|;
    if n == 2 {
      JoinLength(items, sep + and + sep);
      assert SeparatorLength(2, |sep + and + sep|) == |sep + and + sep|;
      assert Sizes(items) == [|items[0]|] + [|items[1]|];
      SumAppend([|items[0]|], [|items[1]|]);
    } else if n >= 3 {
      LongListLength(items, comma, sep, and);
    }
  }

  lemma LongListLength(items: seq<string>, comma: string, sep: string, and: string)
    requires |items| >= 3
    ensures |ListToText(items, comma, sep, and)| == Sum(Sizes(items)) + SeparatorLength(|items|, |comma|) + |and| + |sep|
  {
    var n, k := |items|, |comma|;
    var init, last := items[..n - 1], items[n - 1];
    var p := Join(init, comma);
    var total := Sum(Sizes(items));
    var front := Sum(Sizes(init));
    var gaps := SeparatorLength(n - 1, k);
    assert ListToText(items, comma, sep, and) == p + (comma + and + sep + last);
    assert |p| == front + gaps by {
      JoinLength(init, comma);
    }
    assert total == front + |last| by {
      SumSizesSnoc(items);
    }
    assert SeparatorLength(n, k) == gaps + k;
  }

  /** A text begun by `x` still begins with it when more follows, and a
      text ending in `y` ends the concatenation. */
  lemma Ends(a: string, b: string, x: string, y: string)
    requires StartsWith(a, x) && EndsWith(b, y)
    ensures StartsWith(a + b, x) && EndsWith(a + b, y)
  {
    assert (a + b)[..|x|] == a[..|x|];
    assert (a + b)[|a + b| - |y|..] == b[|b| - |y|..];
  }
}
